=== FILE: README.md ===
# yourtube recommendation core, in Dafny

This project models the deterministic core of yourtube, a YouTube recommender. yourtube keeps a directed graph of videos, where an edge `a -> b` means that page `a` recommends `b`. It clusters a neighbourhood of the user's recent playlist videos into a dendrogram. The user walks down and up that dendrogram, and for every small cluster the recommender shows one video, picked by rank with a tunable amount of exploration. In the background, a scraper fetches watch pages and turns each one into graph updates.

The model is functional. The graph is an immutable record: node insertion order, a map from id to node attributes, and a set of edges. Every operation returns a new value; nothing is mutated in place. Four things the program gets from outside become parameters:

- the clock, as `now`, in whole seconds;
- the triangular random draw, as `draw`, a function of the numpy seed and of `exploration`;
- the external tree splitter `split_into_n_children`, as a partial `Splitter`;
- the MD5 digest, as `digest`.

Modules, in dependency order:

- `Wrappers` (wrappers.dfy): `Option`, `Result`, and the errors the core raises.
- `Seqs` (seqs.dfy): subsequences, order-keeping filters, de-duplication and flattening.
- `Text` (text.dfy): `str.replace`, `str.split`, `str.join`, decimal digits, and `str(n)` with its inverse.
- `Ordering` (ordering.dfy): Python's string order, and `sorted`.
- `Graph` (graph.dfy): the networkx graph, with `add_node` and `add_edge`.
- `Filtering` (filtering.dfy): yourtube/filtering_functions.py.
- `Common` (common.py's model, common.dfy): the time-range query and the `save_graph` guard.
- `Extraction` (extraction.dfy): the `get_*` field extractors of yourtube/scraping.py. Each regular expression the source uses is modelled by a scanner that has the regex engine's behaviour for that one pattern.
- `Scraping` (scraping.dfy):
  - the graph update of `scrape_content`;
  - the skip decision of `choose_which_video_to_skip`, both the graph branch and the database branch;
  - the queue `scrape_from_list` builds;
  - `only_added_in_last_n_years`.
- `Dendrogram` and `Climbing` (climber.dfy): the cluster tree and `TreeClimber`.
- `Selection` (selection.dfy): the k-th smallest rank, which is what `np.argpartition` promises.
- `Recommending` (recommender.dfy): `Recommender`.
- `CacheKey` (cachekey.dfy): the cache key built in `cluster_subgraph`.

Where the written description of the system and the code disagree, the model follows the code:

- **What `exploration = 0` does.** The description says it picks the lowest rank. In the code, `triangular(1 - exploration, 1, 1)` becomes `triangular(1, 1, 1)`, which numpy rejects with `ValueError` because left equals right. So the pick fails (`Recommending.GetIndexWithoutExplorationFails`). For any valid `exploration`, a draw at the mode `1` gives the index `length - 1`, which is the video with the highest rank (`Recommending.GetIndexAtMode`).
- **The triangular draw.** Its mode is `1`, not `1 - exploration`.
- **The database branch of `update_video`.** It clears `is_down` on a successful scrape. The graph branch keeps the old `is_down`, because `add_node` merges attributes. The model follows the graph branch (`Scraping.RecordScrape`).
- **An empty keyword list.** `"keywords":[]` yields `[""]`, not `[]` (`Extraction.KeywordsOfSingle`).

`branch_id` gains `str(i + 1)` on the way down but loses one character on the way up. For columns 1 to 9 this keeps one digit per level. From the tenth column on, a digit is left behind (`Climbing.TenthColumnLeavesDigit`). The application shows 3 columns by default, so the invariant and the round trip are stated for `i < 9`.

## Model

| member | source | states |
|---|---|---|
| Graph.AddNode | yourtube/scraping.py:157 | `add_node` without attributes keeps a present node unchanged; otherwise it adds a bare node at the end of the node order; no other node or edge changes; the graph stays well formed |
| Graph.SetNode | yourtube/scraping.py:158 | replacing one node's attributes leaves order, edges and every other node unchanged |
| Graph.AddEdge | yourtube/scraping.py:182-183 | `add_edge` adds exactly that edge and any missing endpoint, and keeps every existing node's attributes |
| Seqs.Dedup | yourtube/scraping.py:44 | `list(set(xs))` has no duplicates and exactly the members of `xs` |
| Seqs.TwoDistinct | yourtube/scraping.py:80 | a list whose set has more than one element holds two different elements, the case `assert len(candidates) <= 1` rejects |
| Seqs.FewOf | yourtube/scraping.py:65-66 | `list(set(xs))` with one distinct element is that element, with two it is that pair, and otherwise the source's `1 <= len(candidates) <= 2` assertion fails |
| Seqs.Flatten | yourtube/scraping.py:279 | the flattened wall holds exactly the ids of its rows |
| Filtering.StartTime | yourtube/filtering_functions.py:8-13 | the start time is a whole number of months, at most the raw start, and less than a month below it |
| Filtering.AddedInLastNYears | yourtube/filtering_functions.py:7-20 | keeps, in order and with every occurrence, exactly the ids whose `time_added` is after the start time; ids without `time_added` are dropped |
| Filtering.OnlyNotWatched | yourtube/filtering_functions.py:23-27 | a subsequence holding exactly the listed ids that are not watched |
| Filtering.OnlyWatched | yourtube/filtering_functions.py:30-34 | a subsequence holding exactly the listed ids that are watched |
| Filtering.WatchedPartition | yourtube/filtering_functions.py:23-34 | the two filters split their input: every occurrence lands in exactly one of them |
| Filtering.FromCategory | yourtube/filtering_functions.py:37-43 | keeps exactly the ids whose known category is one of `categories`; unscraped ids are dropped |
| Filtering.NotDown | yourtube/filtering_functions.py:46-50 | keeps exactly the ids that are not down |
| Filtering.Neighborhood | yourtube/filtering_functions.py:53-55 | the nodes of the edge subgraph: out-neighbours of the ids, plus the ids that have an out-edge; an id without out-edges is left out |
| Filtering.Sources | yourtube/filtering_functions.py:58-66 | the sources are exactly the non-down videos that are recent, or watched when `use_watched` is set |
| Filtering.SelectNodesToCluster | yourtube/filtering_functions.py:58-67 | no duplicates; a node is selected exactly when it is a source with an out-edge or an out-neighbour of a source |
| Common.GetFromPlaylistsFromTimeRange | yourtube/common.py:33-40 | in node order without duplicates, exactly the nodes whose `time_added` lies strictly between `start` and `end`, where a missing `end` means now |
| Common.SaveGraph | yourtube/common.py:12-13 | saving succeeds exactly when the graph has no self-loop |
| Text.JoinSplit | yourtube/scraping.py:140 | joining the pieces of `split(c)` with `c` gives back the string |
| Text.SplitJoin | yourtube/scraping.py:140 | splitting a `c`-joined list of pieces without `c` gives back the pieces |
| Text.NatToStringRoundTrip | yourtube/scraping.py:71 | `int(str(n)) == n` |
| Text.FirstDigitRun | yourtube/scraping.py:88-92 | the first maximal run of digits, found exactly when the label has a digit |
| Extraction.FindWatchIds | yourtube/scraping.py:43 | every match is 11 characters without a newline, preceded by `watch?v=` in the page |
| Extraction.FindWatchIdsComplete | yourtube/scraping.py:43 | if `watch?v=` followed by 11 newline-free characters occurs at or after the scan start, `findall` returns at least one match |
| Extraction.GetRecommendedIds | yourtube/scraping.py:42-47 | distinct ids, exactly the matched ids other than the page's own id, each 11 characters long |
| Extraction.LazyEnd | yourtube/scraping.py:52 | a lazy `(.*?)` stops at the first closing text with no newline before it, and finds none only when no newline-free stretch reaches one |
| Extraction.FindDelimited | yourtube/scraping.py:52 | every capture is newline-free and sits between the opening and closing texts in the page |
| Extraction.FindDelimitedComplete | yourtube/scraping.py:52 | if the pattern occurs with a newline-free capture, `findall` returns at least one match |
| Extraction.LazyCaptureNoClose | yourtube/scraping.py:52 | the text a lazy `(.*?)` captures never contains its closing text |
| Extraction.FindDelimitedShortest | yourtube/scraping.py:52 | no capture of a lazy `open(.*?)close` pattern contains `close` |
| Extraction.FindTwoPart | yourtube/scraping.py:121 | every `lengthSeconds` capture is newline-free and is followed by its closing quote in the page |
| Extraction.TwoPartEndComplete | yourtube/scraping.py:121 | the inner lazy `.*?` finds its middle text whenever it occurs later on the same line with a closable capture after it |
| Extraction.FindTwoPartComplete | yourtube/scraping.py:97-100 | if the opening text, then the middle text on the same line, then a newline-free capture and the closing text occur at or after the scan start, `findall` returns at least one match |
| Extraction.FindQuotedDigits | yourtube/scraping.py:64 | every capture is a non-empty run of digits between the opening text and a quote |
| Extraction.FindQuotedDigitsComplete | yourtube/scraping.py:64 | if a quoted digit run occurs, `findall` returns at least one match |
| Extraction.UnescapeNoNewChar | yourtube/scraping.py:57-59 | unescaping introduces no character besides `'`, `&` and `"` |
| Extraction.UnescapePlain | yourtube/scraping.py:57-59 | a title without `&` is left alone |
| Extraction.UnescapeOneLevel | yourtube/scraping.py:57-59 | a worked example: because of the fixed replacement order, `&amp;#39;` becomes `&#39;`, not `'` |
| Extraction.GetTitle | yourtube/scraping.py:50-60 | succeeds exactly when there is one title match after newlines become spaces; the title is the first (only) match unescaped, that match contains no ` - YouTube</title>`, and the title has no newline |
| Extraction.GetViewCount | yourtube/scraping.py:63-71 | over the set of matched numbers: it succeeds exactly when there are one or two; it gives `None` exactly when there are two; a single number gives its value. Each value occurs in the page as a quoted digit run |
| Extraction.ParseInt | yourtube/scraping.py:128 | `int()` succeeds only on a non-empty digit string |
| Extraction.ParseIntRoundTrip | yourtube/scraping.py:128 | `int(str(n)) == n` through the error-returning parser |
| Extraction.GetLikeCount | yourtube/scraping.py:74-92 | over the set of matched like labels: it fails exactly when there are two or more; it gives `None` exactly when there are none; a single label gives its first digit run after `\xa0` and `,` are removed, or 0 without digits |
| Extraction.LikeClean | yourtube/scraping.py:86-87 | stripping `\xa0` and `,` removes exactly those characters |
| Extraction.LikeValueNoDigits | yourtube/scraping.py:88-91 | a label without digits counts 0 likes |
| Extraction.LikeLabelRoundTrip | yourtube/scraping.py:86-92 | a label that starts with the number `n`, followed by text without digits, counts `n` likes |
| Extraction.AtMostOne | yourtube/scraping.py:100-102 | over the set of candidates: the `len(candidates) <= 1` assertion fails exactly when there are two or more; `None` exactly when there are none; a single candidate is popped |
| Extraction.GetChannelId | yourtube/scraping.py:95-104 | over the set of matched channel ids: it fails exactly when there are two or more; it gives `None` exactly when there are none; a single id is returned as it is |
| Extraction.GetCategory | yourtube/scraping.py:107-117 | over the set of matched categories: it succeeds exactly when there is one, or the pair is exactly `{Trailers, Movies}`; that pair gives `Movies`; a single category gives itself with `\u0026` made `&`; `Movies` comes only from a set within `{Trailers, Movies}`. The result has no newline |
| Extraction.CategoryAmong | yourtube/scraping.py:109-117 | the same choice made from the captured candidates alone; the result is one of them, unescaped |
| Extraction.MoviesUnescaped | yourtube/scraping.py:116-117 | only the capture `Movies` itself unescapes to `Movies` |
| Extraction.GetLength | yourtube/scraping.py:120-128 | over the set of matched lengths: success needs one or two; it gives `None` exactly when there are two; a single length gives `int()` of it, or the error `int()` raises |
| Extraction.KeywordsOf | yourtube/scraping.py:139-140 | the pieces, joined back with `,`, are the match without its quotes |
| Extraction.UnquoteQuotedList | yourtube/scraping.py:139 | removing the quotes of a JSON list of quote-free strings leaves them comma-joined |
| Extraction.KeywordsRoundTrip | yourtube/scraping.py:138-141 | a JSON list of keywords without quotes or commas is read back exactly |
| Extraction.KeywordsOfSingle | yourtube/scraping.py:139-140 | a list text without a comma gives exactly one keyword, so an empty JSON list yields one empty keyword |
| Extraction.GetKeywords | yourtube/scraping.py:131-141 | over the set of matched keyword lists: it fails exactly when there are two or more; it gives `[]` exactly when there are none; a single list gives its comma-separated items without their quotes |
| Scraping.AddEdges | yourtube/scraping.py:182-183 | adds exactly the edges from the video to each recommendation, keeps every existing node, keeps the graph well formed |
| Scraping.GetVideoInfo | yourtube/scraping.py:161-174 | a failing title fails the scrape; the stored title and category are the extracted ones |
| Scraping.GetVideoInfoFields | yourtube/scraping.py:161-174 | the info exists exactly when all seven getters succeed; every stored attribute is its getter's value; a failing view count after a good title is the scrape's error |
| Scraping.MarkDown | yourtube/scraping.py:150-159 | a down video gets `is_down` and no edge; the node set grows by that id only, a new node is otherwise bare, and every other node is unchanged |
| Scraping.RecordScrape | yourtube/scraping.py:179-183 | the node gets its scrape time, category and fields, keeps `watched`, `time_added` and `is_down` (a new node starts not down, not watched, without `time_added`), and gains an edge to each recommendation; the node set grows by the id and the recommendations only |
| Scraping.ScrapeContent | yourtube/scraping.py:144-183 | succeeds exactly when the page looks down or its info can be read, else fails with the getters' error. A down page adds no edge and sets `is_down`, keeping the node otherwise. An up page adds exactly the edges to its recommendations, stamps `time_scraped = now`, stores the category and fields, and keeps `is_down`, `watched` and `time_added`, which start false, false and missing on a new node. The node set grows by the id (and, for an up page, the recommendations) only. No other node changes, and well-formedness and the absence of self-loops are kept |
| Scraping.NewEdgesNotLoops | yourtube/scraping.py:182-183 | edges from a video to recommendations other than itself add no self-loop |
| Scraping.ChooseWhichVideoToSkip | yourtube/scraping.py:212-230 | a subsequence of the input; an id is kept exactly when it is listed and the graph lacks it, or it is not down and not scraped more recently than the threshold |
| Scraping.ChooseByDb | yourtube/scraping.py:231-257 | the database branch keeps exactly the ids whose record passes its early exits |
| Scraping.DbAgreesWithGraph | yourtube/scraping.py:212-257 | for one id, both branches decide alike when the database holds the graph's record |
| Scraping.ChooseByDbAgrees | yourtube/scraping.py:212-257 | over a whole list, both branches return the same list |
| Scraping.ScrapeQueue | yourtube/scraping.py:278-282 | the queue is a subsequence of the flattened wall, has no `""`, and holds exactly the wall's ids that are not skipped |
| Scraping.Zip | yourtube/scraping.py:326 | `zip` pairs up positions and stops at the shorter list |
| Scraping.Unzip | yourtube/scraping.py:333 | `zip(*pairs)` gives two lists of the pairs' length, position by position |
| Scraping.ZipUnzip | yourtube/scraping.py:326-333 | zipping the unzipped pairs gives back the pairs |
| Scraping.KeptAreRecent | yourtube/scraping.py:325-331 | every kept pair was added after the start; none is kept when no pair is recent |
| Scraping.OnlyAddedInLastNYears | yourtube/scraping.py:321-334 | two equal-length lists whose pairs are, in order, exactly the input pairs added after `now - n` years; `([], [])` when none is |
| Dendrogram.PreOrder | yourtube/recommendation.py:146 | a cluster has at least one leaf; a leaf lists only itself; the listed ids are exactly the tree's leaves; a merge lists the left subtree's leaves, then the right's |
| Climbing.SplitAll | yourtube/recommendation.py:197-199 | cutting each child succeeds exactly when every cut succeeds, and gives the cuts in order |
| Climbing.NewOffspring | yourtube/recommendation.py:195-200 | the offspring exist exactly when the cluster and each of its children can be cut; they are those cuts |
| Climbing.Reset | yourtube/recommendation.py:161-165 | after `reset` the path is empty, `branch_id` is `""`, and the state is coherent |
| Climbing.ChooseColumn | yourtube/recommendation.py:167-182 | -1 with nothing changed exactly when the child cannot be cut; otherwise 0, the old cluster pushed, `str(i+1)` appended, and the child current |
| Climbing.GoBack | yourtube/recommendation.py:184-193 | -1 with nothing changed on an empty path; otherwise it returns 0 when the popped cluster can be cut, pops it, drops the last character of `branch_id`, and re-cuts |
| Climbing.GoBackKeepsCoherent | yourtube/recommendation.py:184-193 | on a coherent state `go_back` never raises and keeps the state coherent |
| Climbing.ChooseColumnKeepsCoherent | yourtube/recommendation.py:167-182 | a single-digit column choice keeps one `branch_id` digit per stacked cluster |
| Climbing.ChooseThenGoBack | yourtube/recommendation.py:167-193 | a successful `choose_column(i)` then `go_back()` restores cluster, path, `branch_id` and offspring |
| Climbing.TenthColumnLeavesDigit | yourtube/recommendation.py:178-191 | from the tenth column on, `branch_id` is one character longer than the path, and going back leaves a stray digit |
| Climbing.RunKeepsCoherent | yourtube/recommendation.py:161-193 | any sequence of single-digit choices and `go_back`s keeps `len(branch_id) == len(path)`; a sequence of `go_back`s never raises |
| Selection.KthSmallest | yourtube/recommendation.py:131-132 | the value is in the list, at most `k` entries are smaller, and more than `k` do not exceed it |
| Selection.KthSmallestUnique | yourtube/recommendation.py:131-132 | only one value is the k-th smallest, so the selection's rank is determined |
| Selection.FirstIndexOf | yourtube/recommendation.py:132-133 | a position that holds the chosen rank |
| Recommending.InDegreeFromRecent | yourtube/recommendation.py:106-110 | counting in-edges from the filtered sources counts the distinct recent in-neighbours, and at most the distinct sources |
| Recommending.ComputeNodeRanks | yourtube/recommendation.py:98-111 | every id gets a rank, and no other key does; the rank is the number of distinct recent listed videos linking to it, bounded by the number of sources |
| Recommending.Trunc | yourtube/recommendation.py:118 | `int()` of a float truncates toward zero |
| Recommending.Clip | yourtube/recommendation.py:120 | `np.clip` lands in `[lo, hi]` and keeps a value already inside |
| Recommending.GetIndex | yourtube/recommendation.py:113-121 | succeeds exactly when `0 < exploration <= 1`; outside `[0, 1]` the assertion fails, and at 0 numpy's `left == right` error is raised; a success is a valid index of a non-empty list, whatever the draw |
| Recommending.GetIndexExplorationBound | yourtube/recommendation.py:116-120 | a draw in `[1 - exploration, 1]` gives an index no lower than the one `1 - exploration` gives |
| Recommending.GetIndexWithoutExplorationFails | yourtube/recommendation.py:113-119 | with `exploration = 0` the draw `triangular(1, 1, 1)` raises, so no index is chosen |
| Recommending.GetIndexAtMode | yourtube/recommendation.py:116-121 | a draw at the mode `1` gives the index `length - 1`, the highest rank |
| Recommending.RanksOf | yourtube/recommendation.py:130 | the rank list lines up with the ids |
| Recommending.RecommendByInDegree | yourtube/recommendation.py:123-134 | `""` for no ids; otherwise a listed id whose rank is the index-th smallest; it fails exactly when there are ids and `exploration` is not in `(0, 1]`, with the draw's error |
| Recommending.Candidates | yourtube/recommendation.py:146-149 | the cluster's leaves in order, minus the watched ones under `hide_watched` |
| Recommending.PickOne | yourtube/recommendation.py:146-151 | a cell is `""` exactly for a cluster without candidates; otherwise it is a candidate whose rank is the `index`-th smallest of the candidates' ranks, `index` being `get_index` of the position drawn with the seed `seed + len(ids)`; it fails exactly when there are candidates and `exploration` is not in `(0, 1]` |
| Recommending.PickIsGood | yourtube/recommendation.py:146-151 | `recommend_by_in_degree` on a cluster's filtered leaves, with the draw seeded by their number, gives a cell that is `""` for no candidate and otherwise the candidate of the drawn rank |
| Recommending.BuildRow | yourtube/recommendation.py:143-151 | one pick per grandchild of a child, in order, each `""` for no candidate and otherwise the candidate of the rank drawn with the seed `seed + len(ids)`; a failure carries the draw's error for that `exploration` |
| Recommending.BuildWall | yourtube/recommendation.py:136-153 | the wall has the shape of `grandchildren`, and every cell is `recommend_by_in_degree`'s choice for its cluster: `""` for no candidate, otherwise a candidate whose rank is the `index`-th smallest, `index` coming from the draw seeded with `seed + len(ids)`; it fails only when `exploration` is not in `(0, 1]` and some candidate is present, with the same error for every cluster |
| Ordering.SortPermutationInvariant | yourtube/recommendation.py:31 | `sorted` depends only on which ids are listed |
| CacheKey.RoundHalfEven | yourtube/recommendation.py:34 | rounding to the nearest integer, with ties going to the even one |
| CacheKey.TwoDigits | yourtube/recommendation.py:34 | the two printed decimals read back as their value |
| CacheKey.RenderRoundTrip | yourtube/recommendation.py:34 | the printed `-q.rr` form reads back as its sign and hundredths |
| CacheKey.Fixed2SameIff | yourtube/recommendation.py:34 | two parameters print alike exactly when their sign and rounded hundredths agree |
| CacheKey.Key | yourtube/recommendation.py:31-34 | the key starts with both printed parameters, each followed by `_` |
| CacheKey.KeyPermutationInvariant | yourtube/recommendation.py:31-34 | any permutation of the clustered ids gives the same key |
| CacheKey.KeyParts | yourtube/recommendation.py:34 | when the digest has no `_` (a hexadecimal one has none), splitting the key at `_` gives back both printed parameters and the digest |
| CacheKey.SameKey | yourtube/recommendation.py:31-34 | equal keys mean equal rounded parameters and equal digests |
| CacheKey.ConcatInjective | yourtube/recommendation.py:32 | gluing ids of one fixed length loses nothing |
| CacheKey.UniqueStringExact | yourtube/recommendation.py:31-32 | for 11-character ids, the hashed string is the same exactly when the id lists are permutations of each other |

## Left out

- HTTP, the database and files are not modelled. This covers `get_content`, transcripts, the Cypher queries and writes, playlist and watched-history scraping, and the pickle files of the graph, the clustering cache and saved clusters.
- Threads are not modelled: the executor, the futures, `cancel_all_tasks`, and the `Engine` methods that only start threads or call the UI back.
- Most of `cluster_subgraph` is left out: the external clustering, `to_tree`, the largest connected component, the dendrogram image and the clustering quality. Only the key of lines 31-34 is modelled.
- MD5 is the parameter `digest`, `split_into_n_children` is the parameter `split`, the seeded triangular draw is the parameter `draw`, and `time()` is the parameter `now`.
- `liked_to_views_ratio` is floating-point arithmetic that the recommender does not call.
- Times are whole seconds. The month of 30.4 days is exactly 2626560 seconds, so the integer model of the float constant is exact.
- CacheKey.Fixed2: the balance parameters are exact reals. Python prints the binary double, so a decimal halfway case such as 2.675 can round the other way.
- Extraction.ParseInt: accepts only ASCII digit strings. Python's `int()` also accepts surrounding whitespace, a sign, underscores between digits and non-ASCII decimal digits. The lazy `(.*?)` of `get_length` can capture any of these. The model assumes YouTube's pages never put them in `lengthSeconds`. On such a page the model reports an error where Python would return a number.
- Recommending.GetIndex: `exploration` is an exact real. In doubles, a positive `exploration` below about `1e-16` makes `1 - exploration` round to `1.0`, so numpy raises as it does for 0. The model accepts such an `exploration`.
- Only the regular expressions the core uses are modelled, each by its own scanner. There is no general regex engine.
- `list(set(xs))` has no fixed order in Python; `Seqs.Dedup` keeps last occurrences. Likewise `np.argpartition` may return any of several tied positions; the model returns the first.
- Climbing.ChooseColumn: requires `0 <= i < len(children)`. Python also accepts a negative `i`, counted from the end, and raises `IndexError` past the end; the interface only passes column numbers in range.
- A `reset` or `go_back` whose cut raises leaves a half-updated `TreeClimber` in Python. The model returns `None` and no state.
- `add_node(id_, **video_info)` also stores the id itself and `time_scraped` as a float. The model stores the scraped fields as `Metadata` and `time_scraped` as `now`.
- The UI modules, the configuration, Takeout parsing and the legacy prototypes are outside the core.

=== FILE: cachekey.dfy ===
/** The name of the clustering cache entry in `cluster_subgraph`
    (yourtube/recommendation.py): the two balance parameters printed with two
    decimals, then the digest of the sorted ids glued together. The digest
    (MD5 in hex) is the parameter `digest`. */
module CacheKey {
  import opened Wrappers
  import opened Text
  import opened Ordering

  /** Round half to even, the rounding of Python's `format`, for the exact
      value of a non-negative number. */
  function RoundHalfEven(y: real): (r: nat)
    requires y >= 0.0
    ensures y - 0.5 <= r as real <= y + 0.5
    ensures r as real == y - 0.5 || r as real == y + 0.5 ==> r % 2 == 0
  {
    var f := y.Floor;
    var frac := y - f as real;
    if frac < 0.5 then f
    else if frac > 0.5 then f + 1
    else if f % 2 == 0 then f else f + 1
  }

  /** What `f"{x:.2f}"` shows of `x`: whether a minus sign is printed, and
      the number of hundredths after rounding. */
  function Cents(x: real): (bool, nat) {
    (x < 0.0, RoundHalfEven(if x < 0.0 then -x * 100.0 else x * 100.0))
  }

  /** Two digits, with a leading zero. */
  function TwoDigits(c: nat): (s: string)
    requires c < 100
    ensures |s| == 2 && AllDigits(s)
    ensures DigitsValue(s) == c
  {
    var s := [DigitChar(c / 10), DigitChar(c % 10)];
    assert DigitValue(s[0]) == c / 10 && DigitValue(s[1]) == c % 10;
    assert s[..1][..0] == "";
    assert DigitsValue(s[..1]) == c / 10;
    s
  }

  /** A sign and a count of hundredths, printed as `-q.rr` or `q.rr`. */
  function Render(neg: bool, cents: nat): (s: string)
    ensures '_' !in s
  {
    (if neg then "-" else "") + NatToString(cents / 100) + "." + TwoDigits(cents % 100)
  }

  /** `f"{x:.2f}"`. */
  function Fixed2(x: real): (s: string)
    ensures '_' !in s
  {
    Render(Cents(x).0, Cents(x).1)
  }

  /** Reads a count of hundredths back from `q.rr`. */
  function Unsigned(body: string): Option<nat> {
    if |body| < 4 || body[|body| - 3] != '.' then None
    else
      var whole, frac := body[..|body| - 3], body[|body| - 2..];
      if AllDigits(whole) && AllDigits(frac) then Some(DigitsValue(whole) * 100 + DigitsValue(frac))
      else None
  }

  /** Reads a sign and a count of hundredths back from `-q.rr` or `q.rr`. */
  function Unrender(s: string): Option<(bool, nat)> {
    var neg := |s| > 0 && s[0] == '-';
    match Unsigned(if neg then s[1..] else s)
    case None => None
    case Some(cents) => Some((neg, cents))
  }

  lemma UnsignedRoundTrip(q: nat, r: nat)
    requires r < 100
    ensures Unsigned(NatToString(q) + "." + TwoDigits(r)) == Some(q * 100 + r)
  {
    var whole, frac := NatToString(q), TwoDigits(r);
    var body := whole + "." + frac;
    assert body[..|body| - 3] == whole;
    assert body[|body| - 2..] == frac;
    assert body[|body| - 3] == '.';
    NatToStringRoundTrip(q);
  }

  /** The printed form can be read back, so it loses nothing beyond the
      rounding to hundredths. */
  lemma RenderRoundTrip(neg: bool, cents: nat)
    ensures Unrender(Render(neg, cents)) == Some((neg, cents))
  {
    var q, r := cents / 100, cents % 100;
    assert q * 100 + r == cents;
    var whole := NatToString(q);
    assert whole[0] in whole;
    var body := whole + "." + TwoDigits(r);
    assert body[0] == whole[0];
    assert Render(neg, cents) == (if neg then "-" else "") + body;
    UnsignedRoundTrip(q, r);
    SignStrip(neg, body, cents);
  }

  /** The sign is read off the front of a body that starts with a digit. */
  lemma SignStrip(neg: bool, body: string, cents: nat)
    requires |body| > 0 && IsDigit(body[0]) && Unsigned(body) == Some(cents)
    ensures Unrender((if neg then "-" else "") + body) == Some((neg, cents))
  {
    var s := (if neg then "-" else "") + body;
    assert (if |s| > 0 && s[0] == '-' then s[1..] else s) == body;
  }

  /** Two parameters print alike exactly when they agree in sign and in
      rounded hundredths. */
  lemma Fixed2SameIff(x: real, y: real)
    ensures Fixed2(x) == Fixed2(y) <==> Cents(x) == Cents(y)
  {
    RenderRoundTrip(Cents(x).0, Cents(x).1);
    RenderRoundTrip(Cents(y).0, Cents(y).1);
  }

  /** `"".join(ids)`. */
  function Concat(ids: seq<string>): (s: string)
    ensures |ids| > 0 ==> s == ids[0] + Concat(ids[1..])
  {
    if |ids| == 0 then "" else ids[0] + Concat(ids[1..])
  }

  /** The string whose digest names the cache entry: the sorted ids, glued. */
  function UniqueString(nodes: seq<string>): string {
    Concat(Sort(nodes))
  }

  /** The cache key, before it is formatted into the file name. */
  function Key(nodes: seq<string>, alpha: real, beta: real, digest: string -> string): (key: string)
    ensures StartsWith(key, Fixed2(alpha) + "_" + Fixed2(beta) + "_")
  {
    var prefix := Fixed2(alpha) + "_" + Fixed2(beta) + "_";
    var key := prefix + digest(UniqueString(nodes));
    assert key[..|prefix|] == prefix;
    key
  }

  /** The key depends on which ids are clustered, not on their order. */
  lemma KeyPermutationInvariant(a: seq<string>, b: seq<string>, alpha: real, beta: real, digest: string -> string)
    requires multiset(a) == multiset(b)
    ensures Key(a, alpha, beta, digest) == Key(b, alpha, beta, digest)
  {
    SortPermutationInvariant(a, b);
  }

  /** A digest without `_` (a hexadecimal one) can be split back off the key,
      together with both printed parameters. */
  lemma KeyParts(nodes: seq<string>, alpha: real, beta: real, digest: string -> string)
    ensures '_' !in digest(UniqueString(nodes)) ==>
      Split(Key(nodes, alpha, beta, digest), '_') == [Fixed2(alpha), Fixed2(beta), digest(UniqueString(nodes))]
  {
    var parts := [Fixed2(alpha), Fixed2(beta), digest(UniqueString(nodes))];
    if '_' !in parts[2] {
      assert Join(parts[2..], '_') == parts[2];
      assert Join(parts[1..], '_') == parts[1] + "_" + parts[2];
      assert Join(parts, '_') == Key(nodes, alpha, beta, digest);
      SplitJoin(parts, '_');
    }
  }

  /** Equal keys mean equal rounded parameters and equal digests. */
  lemma SameKey(a: seq<string>, b: seq<string>, alpha1: real, beta1: real, alpha2: real, beta2: real,
                digest: string -> string)
    requires '_' !in digest(UniqueString(a)) && '_' !in digest(UniqueString(b))
    requires Key(a, alpha1, beta1, digest) == Key(b, alpha2, beta2, digest)
    ensures Cents(alpha1) == Cents(alpha2) && Cents(beta1) == Cents(beta2)
    ensures digest(UniqueString(a)) == digest(UniqueString(b))
  {
    KeyParts(a, alpha1, beta1, digest);
    KeyParts(b, alpha2, beta2, digest);
    Fixed2SameIff(alpha1, alpha2);
    Fixed2SameIff(beta1, beta2);
  }

  predicate AllOfLength(ids: seq<string>, n: nat) {
    forall k :: 0 <= k < |ids| ==> |ids[k]| == n
  }

  /** Gluing ids of one fixed, non-zero length loses nothing. */
  lemma {:induction false} ConcatInjective(a: seq<string>, b: seq<string>, n: nat)
    requires n > 0 && AllOfLength(a, n) && AllOfLength(b, n)
    requires Concat(a) == Concat(b)
    ensures a == b
    decreases |a|
  {
    if |a| > 0 && |b| > 0 {
      ConcatHead(a, n);
      ConcatHead(b, n);
      ConcatInjective(a[1..], b[1..], n);
      assert a == [a[0]] + a[1..] && b == [b[0]] + b[1..];
    }
  }

  /** The first `n` characters of the glued string are the first id. */
  lemma ConcatHead(ids: seq<string>, n: nat)
    requires |ids| > 0 && AllOfLength(ids, n)
    ensures Concat(ids)[..n] == ids[0] && Concat(ids)[n..] == Concat(ids[1..])
    ensures AllOfLength(ids[1..], n)
  {
    assert |ids[0]| == n;
  }

  /** For video ids, which all have 11 characters, the hashed string stands
      for exactly one collection of ids: two lists give the same string if
      and only if they hold the same ids, counted with multiplicity. */
  lemma UniqueStringExact(a: seq<string>, b: seq<string>)
    requires AllOfLength(a, 11) && AllOfLength(b, 11)
    ensures UniqueString(a) == UniqueString(b) <==> multiset(a) == multiset(b)
  {
    if UniqueString(a) == UniqueString(b) {
      SortedOfLength(a, 11);
      SortedOfLength(b, 11);
      ConcatInjective(Sort(a), Sort(b), 11);
    }
    if multiset(a) == multiset(b) {
      SortPermutationInvariant(a, b);
    }
  }

  lemma SortedOfLength(a: seq<string>, n: nat)
    requires AllOfLength(a, n)
    ensures AllOfLength(Sort(a), n)
  {
    var s := Sort(a);
    forall k | 0 <= k < |s| ensures |s[k]| == n {
      assert s[k] in multiset(a);
    }
  }
}

=== FILE: climber.dfy ===
/** The dendrogram the clustering produces: scipy's `ClusterNode`, reduced to
    what the core reads — its leaves, which carry video ids. */
module Dendrogram {
  import opened Wrappers
  import opened Graph

  datatype ClusterTree = Leaf(id: Id) | Merge(left: ClusterTree, right: ClusterTree)

  /** `id` labels some leaf of the cluster. */
  predicate InTree(t: ClusterTree, id: Id) {
    match t
    case Leaf(x) => x == id
    case Merge(l, r) => InTree(l, id) || InTree(r, id)
  }

  /** `tree.pre_order()`: the leaf ids, left to right. It lists exactly the
      leaves of the cluster, those of the left branch before those of the
      right one. */
  function PreOrder(t: ClusterTree): (r: seq<Id>)
    ensures |r| >= 1
    ensures t.Leaf? ==> r == [t.id]
    ensures forall id :: id in r <==> InTree(t, id)
    ensures t.Merge? ==>
      var n := |PreOrder(t.left)|;
      n < |r| && r[..n] == PreOrder(t.left) && r[n..] == PreOrder(t.right)
  {
    match t
    case Leaf(id) => [id]
    case Merge(l, r) => PreOrder(l) + PreOrder(r)
  }

  /** The external `split_into_n_children(tree, n)`: cuts a cluster into `n`
      sub-clusters, or fails (a `ValueError`) when the cluster is too small. */
  type Splitter = (ClusterTree, nat) -> Option<seq<ClusterTree>>
}

/** `TreeClimber` (yourtube/recommendation.py): the navigator over the
    dendrogram. Its state is the current cluster, the stack of clusters above
    it, a `branch_id` of one digit per step down, and the current cluster cut
    into `num_of_groups` children, each cut into `videos_in_group`
    grandchildren. Every operation returns the new state instead of mutating. */
module Climbing {
  import opened Wrappers
  import opened Text
  import opened Dendrogram

  datatype Climber = Climber(
    numGroups: nat,
    perGroup: nat,
    tree: ClusterTree,
    path: seq<ClusterTree>,
    branchId: string,
    children: seq<ClusterTree>,
    grandchildren: seq<seq<ClusterTree>>)

  /** Result of `choose_column` / `go_back`: the exit code and the new state. */
  datatype Step = Step(code: int, state: Climber)

  /** Cuts each tree of `ts` into `n`; fails as soon as one cut fails. */
  function SplitAll(split: Splitter, ts: seq<ClusterTree>, n: nat): (r: Option<seq<seq<ClusterTree>>>)
    ensures r.Some? <==> forall i :: 0 <= i < |ts| ==> split(ts[i], n).Some?
    ensures r.Some? ==> |r.value| == |ts|
    ensures r.Some? ==> forall i :: 0 <= i < |ts| ==> r.value[i] == split(ts[i], n).value
  {
    if |ts| == 0 then Some([])
    else match split(ts[0], n)
      case None => None
      case Some(first) =>
        match SplitAll(split, ts[1..], n)
        case None =>
          assert forall i :: 1 <= i < |ts| ==> ts[i] == ts[1..][i - 1];
          None
        case Some(rest) =>
          assert forall i :: 1 <= i < |ts| ==> ts[i] == ts[1..][i - 1];
          Some([first] + rest)
  }

  /** `new_offspring`: the children of `t` and, for each child, its
      grandchildren; `None` when any of the cuts raises `ValueError`. */
  function NewOffspring(split: Splitter, numGroups: nat, perGroup: nat, t: ClusterTree)
    : (r: Option<(seq<ClusterTree>, seq<seq<ClusterTree>>)>)
    ensures r.Some? <==>
      && split(t, numGroups).Some?
      && forall i :: 0 <= i < |split(t, numGroups).value| ==> split(split(t, numGroups).value[i], perGroup).Some?
    ensures r.Some? ==>
      && r.value.0 == split(t, numGroups).value
      && |r.value.1| == |r.value.0|
      && forall i :: 0 <= i < |r.value.0| ==> r.value.1[i] == split(r.value.0[i], perGroup).value
  {
    match split(t, numGroups)
    case None => None
    case Some(children) =>
      match SplitAll(split, children, perGroup)
      case None => None
      case Some(grandchildren) => Some((children, grandchildren))
  }

  predicate Splittable(split: Splitter, c: Climber, t: ClusterTree) {
    NewOffspring(split, c.numGroups, c.perGroup, t).Some?
  }

  /** The state invariant: the offspring are those of the current cluster,
      every cluster on the stack can be cut again, and `branch_id` holds one
      non-zero digit per step down. */
  predicate Coherent(split: Splitter, c: Climber) {
    && NewOffspring(split, c.numGroups, c.perGroup, c.tree) == Some((c.children, c.grandchildren))
    && (forall k :: 0 <= k < |c.path| ==> Splittable(split, c, c.path[k]))
    && |c.branchId| == |c.path|
    && (forall k :: 0 <= k < |c.branchId| ==> '1' <= c.branchId[k] <= '9')
  }

  /** `TreeClimber(num_of_groups, videos_in_group).reset(tree)`; `None` when
      cutting `tree` raises. */
  function Reset(split: Splitter, numGroups: nat, perGroup: nat, tree: ClusterTree): (r: Option<Climber>)
    ensures r.Some? <==> NewOffspring(split, numGroups, perGroup, tree).Some?
    ensures r.Some? ==> Coherent(split, r.value)
    ensures r.Some? ==> r.value.tree == tree && r.value.path == [] && r.value.branchId == ""
    ensures r.Some? ==> r.value.numGroups == numGroups && r.value.perGroup == perGroup
  {
    match NewOffspring(split, numGroups, perGroup, tree)
    case None => None
    case Some(offspring) => Some(Climber(numGroups, perGroup, tree, [], "", offspring.0, offspring.1))
  }

  /** `choose_column(i)`: descend into the `i`-th child. When the child cannot
      be cut further the code is -1 and nothing changes. */
  function ChooseColumn(split: Splitter, c: Climber, i: nat): (r: Step)
    requires i < |c.children|
    ensures r.code == -1 || r.code == 0
    ensures r.code == -1 <==> !Splittable(split, c, c.children[i])
    ensures r.code == -1 ==> r.state == c
    ensures r.code == 0 ==>
      && r.state.tree == c.children[i]
      && r.state.path == c.path + [c.tree]
      && r.state.branchId == c.branchId + NatToString(i + 1)
      && NewOffspring(split, c.numGroups, c.perGroup, c.children[i]) == Some((r.state.children, r.state.grandchildren))
      && r.state.numGroups == c.numGroups && r.state.perGroup == c.perGroup
  {
    var next := c.children[i];
    match NewOffspring(split, c.numGroups, c.perGroup, next)
    case None => Step(-1, c)
    case Some(offspring) =>
      Step(0, c.(path := c.path + [c.tree], branchId := c.branchId + NatToString(i + 1),
                 tree := next, children := offspring.0, grandchildren := offspring.1))
  }

  /** `go_back()`: climb to the cluster on top of the stack and re-cut it.
      With an empty stack the code is -1 and nothing changes; `None` stands
      for the `ValueError` the re-cut would raise. */
  function GoBack(split: Splitter, c: Climber): (r: Option<Step>)
    ensures c.path == [] ==> r == Some(Step(-1, c))
    ensures c.path != [] ==>
      (r.Some? <==> Splittable(split, c, c.path[|c.path| - 1]))
    ensures c.path != [] && r.Some? ==> r.value.code == 0
    ensures r.Some? && r.value.code == 0 ==>
      && c.path != []
      && r.value.state.tree == c.path[|c.path| - 1]
      && r.value.state.path == c.path[..|c.path| - 1]
      && r.value.state.branchId == (if c.branchId == "" then "" else c.branchId[..|c.branchId| - 1])
      && NewOffspring(split, c.numGroups, c.perGroup, c.path[|c.path| - 1])
         == Some((r.value.state.children, r.value.state.grandchildren))
      && r.value.state.numGroups == c.numGroups && r.value.state.perGroup == c.perGroup
  {
    if c.path == [] then Some(Step(-1, c))
    else
      var top := c.path[|c.path| - 1];
      var id := if c.branchId == "" then "" else c.branchId[..|c.branchId| - 1];
      match NewOffspring(split, c.numGroups, c.perGroup, top)
      case None => None
      case Some(offspring) =>
        Some(Step(0, c.(tree := top, path := c.path[..|c.path| - 1], branchId := id,
                        children := offspring.0, grandchildren := offspring.1)))
  }

  /** On a coherent state `go_back` never raises, and it keeps the state
      coherent. */
  lemma GoBackKeepsCoherent(split: Splitter, c: Climber)
    requires Coherent(split, c)
    ensures GoBack(split, c).Some?
    ensures Coherent(split, GoBack(split, c).value.state)
    ensures GoBack(split, c).value.code == 0 <==> c.path != []
  {
    if c.path != [] {
      assert Splittable(split, c, c.path[|c.path| - 1]);
      var s := GoBack(split, c).value.state;
      assert forall k :: 0 <= k < |s.path| ==> s.path[k] == c.path[k];
      assert forall k :: 0 <= k < |s.branchId| ==> s.branchId[k] == c.branchId[k];
    }
  }

  /** Choosing a column whose number `i + 1` is a single digit keeps the
      state coherent, so `branch_id` keeps one digit per stacked cluster. */
  lemma ChooseColumnKeepsCoherent(split: Splitter, c: Climber, i: nat)
    requires Coherent(split, c)
    requires i < |c.children| && i < 9
    ensures Coherent(split, ChooseColumn(split, c, i).state)
  {
    var r := ChooseColumn(split, c, i);
    if r.code == 0 {
      var s := r.state;
      var d := NatToString(i + 1);
      assert |d| == 1 && d[0] != '0';
      assert forall k :: 0 <= k < |c.path| ==> s.path[k] == c.path[k];
      assert s.path[|c.path|] == c.tree;
      assert forall k :: 0 <= k < |c.branchId| ==> s.branchId[k] == c.branchId[k];
      assert s.branchId[|c.branchId|] == d[0];
    }
  }

  /** A successful `choose_column(i)` followed by `go_back()` restores the
      state exactly, offspring included, because the splitter is a function. */
  lemma ChooseThenGoBack(split: Splitter, c: Climber, i: nat)
    requires Coherent(split, c)
    requires i < |c.children| && i < 9
    requires ChooseColumn(split, c, i).code == 0
    ensures GoBack(split, ChooseColumn(split, c, i).state) == Some(Step(0, c))
  {
    var s := ChooseColumn(split, c, i).state;
    var d := NatToString(i + 1);
    assert |d| == 1;
    assert s.path[..|s.path| - 1] == c.path;
    assert s.branchId[..|s.branchId| - 1] == c.branchId;
    assert Splittable(split, s, c.tree);
  }

  /** The column number is written with `str(i + 1)` but `go_back` drops one
      character: from the tenth column on, the round trip leaves a stray
      digit behind. The application's default of 3 columns never gets here. */
  lemma TenthColumnLeavesDigit(split: Splitter, c: Climber)
    requires Coherent(split, c)
    requires 9 < |c.children|
    requires ChooseColumn(split, c, 9).code == 0
    ensures |ChooseColumn(split, c, 9).state.branchId| == |ChooseColumn(split, c, 9).state.path| + 1
    ensures GoBack(split, ChooseColumn(split, c, 9).state).value.state.branchId == c.branchId + "1"
  {
    var s := ChooseColumn(split, c, 9).state;
    assert NatToString(10) == "10";
    assert s.branchId == c.branchId + "10";
    assert s.branchId[..|s.branchId| - 1] == c.branchId + "1";
    assert Splittable(split, s, c.tree);
  }

  /** The two user actions of the navigation UI. */
  datatype Action = Choose(column: nat) | Back

  /** Replays `acts` from `c`; `None` when an action raises (an out-of-range
      column or a failing re-cut). */
  function Run(split: Splitter, c: Climber, acts: seq<Action>): Option<Climber>
    decreases |acts|
  {
    if |acts| == 0 then Some(c)
    else match acts[0]
      case Choose(i) =>
        if i < |c.children| then Run(split, ChooseColumn(split, c, i).state, acts[1..]) else None
      case Back =>
        match GoBack(split, c)
        case None => None
        case Some(step) => Run(split, step.state, acts[1..])
  }

  /** From a fresh `reset`, any sequence of single-digit column choices and
      `go_back`s keeps `len(branch_id) == len(path)`; `go_back` never raises
      on the way. */
  lemma {:induction false} RunKeepsCoherent(split: Splitter, c: Climber, acts: seq<Action>)
    requires Coherent(split, c)
    requires forall k :: 0 <= k < |acts| && acts[k].Choose? ==> acts[k].column < 9
    ensures Run(split, c, acts).Some? ==> Coherent(split, Run(split, c, acts).value)
    ensures Run(split, c, acts).Some? ==> |Run(split, c, acts).value.branchId| == |Run(split, c, acts).value.path|
    ensures (forall k :: 0 <= k < |acts| ==> acts[k].Back?) ==> Run(split, c, acts).Some?
    decreases |acts|
  {
    if |acts| > 0 {
      assert forall k :: 1 <= k < |acts| ==> acts[1..][k - 1] == acts[k];
      match acts[0]
      case Choose(i) =>
        if i < |c.children| {
          ChooseColumnKeepsCoherent(split, c, i);
          RunKeepsCoherent(split, ChooseColumn(split, c, i).state, acts[1..]);
        }
      case Back =>
        GoBackKeepsCoherent(split, c);
        RunKeepsCoherent(split, GoBack(split, c).value.state, acts[1..]);
    }
  }
}

=== FILE: common.dfy ===
/** Graph helpers of yourtube/common.py: the time-range query over playlist
    videos and the no-self-loop guard of `save_graph`. */
module Common {
  import opened Wrappers
  import opened Seqs
  import opened Graph

  /** `time_added` lies strictly between `start` and `end`. */
  predicate AddedBetween(g: Graph, start: int, end: int, id: Id) {
    && id in g.nodes
    && g.nodes[id].timeAdded.Some?
    && start < g.nodes[id].timeAdded.value < end
  }

  /** The videos added strictly inside `(start, end)`, in node order; a
      missing `end` means the current time `now`. */
  function GetFromPlaylistsFromTimeRange(g: Graph, start: int, end: Option<int>, now: int): (r: seq<Id>)
    requires Valid(g)
    ensures IsSubsequence(r, g.order)
    ensures Distinct(r)
    ensures forall id :: id in r ==>
      && id in g.nodes
      && g.nodes[id].timeAdded.Some?
      && start < g.nodes[id].timeAdded.value
      && g.nodes[id].timeAdded.value < (if end.Some? then end.value else now)
    ensures forall id :: AddedBetween(g, start, if end.Some? then end.value else now, id) ==> id in r
  {
    var stop := if end.None? then now else end.value;
    FilterDistinct(g.order, id => AddedBetween(g, start, stop, id));
    Filter(g.order, id => AddedBetween(g, start, stop, id))
  }

  /** `save_graph` asserts that the graph has no self-loop before writing
      it; the written graph is the graph itself. */
  function SaveGraph(g: Graph): (r: Result<Graph>)
    ensures r.Ok? <==> NoSelfLoops(g)
    ensures r.Ok? ==> r.value == g
  {
    if exists e | e in g.edges :: e.0 == e.1 then Err(AssertionFailed("self-loop edge"))
    else Ok(g)
  }
}

=== FILE: extraction.dfy ===
/** Field extraction from a watch page (the `get_*` functions of
    yourtube/scraping.py). Each `re.findall` the source uses is modelled by a
    scanner over the page text with the regex engine's behaviour for that
    pattern: matches are found left to right without overlap, a lazy `(.*?)`
    takes the shortest capture, and `.` does not match a newline. A failed
    `assert` on the number of matches, or `int()` of a non-number, is `Err`. */
module Extraction {
  import opened Wrappers
  import opened Seqs
  import opened Text

  const WatchPrefix := "watch?v="
  const IdLength := 11

  /** No newline in `s[a..b]`: the span a `.` can match. */
  predicate NoNewline(s: string, a: int, b: int)
    requires 0 <= a <= b <= |s|
  {
    forall k :: a <= k < b ==> s[k] != '\n'
  }

  /** The occurrence `pre + s[a..b] + post` of a capture, given where its
      three parts sit in `s`. */
  lemma CaptureOccurs(s: string, i: nat, a: nat, b: nat, pre: string, post: string)
    requires i + |pre| == a <= b && b + |post| <= |s|
    requires OccursAt(s, pre, i) && OccursAt(s, post, b)
    ensures OccursAt(s, pre + s[a..b] + post, i) && Occurs(s, pre + s[a..b] + post)
  {
    assert s[i..b + |post|] == s[i..a] + s[a..b] + s[b..b + |post|];
    assert 0 <= i <= |s| && OccursAt(s, pre + s[a..b] + post, i);
  }

  /** `re.findall(r"watch\?v=(.{11})", text[from..])`: each match is the
      prefix followed by eleven characters other than a newline. */
  function FindWatchIds(text: string, from: nat): (ids: seq<string>)
    requires from <= |text|
    ensures forall id :: id in ids ==> |id| == IdLength && '\n' !in id && Occurs(text, WatchPrefix + id)
    decreases |text| - from
  {
    if from + |WatchPrefix| + IdLength > |text| then []
    else
      var a := from + |WatchPrefix|;
      var b := a + IdLength;
      if OccursAt(text, WatchPrefix, from) && NoNewline(text, a, b) then
        CaptureOccurs(text, from, a, b, WatchPrefix, "");
        assert WatchPrefix + text[a..b] + "" == WatchPrefix + text[a..b];
        [text[a..b]] + FindWatchIds(text, b)
      else
        FindWatchIds(text, from + 1)
  }

  /** If `watch?v=` followed by eleven newline-free characters occurs at
      or after `from`, then `findall` finds at least one id. */
  lemma {:induction false} FindWatchIdsComplete(text: string, from: nat, i: nat, id: string)
    requires from <= i && |id| == IdLength && '\n' !in id
    requires OccursAt(text, WatchPrefix + id, i)
    ensures FindWatchIds(text, from) != []
    decreases i - from
  {
    var a := from + |WatchPrefix|;
    var b := a + IdLength;
    if from == i {
      assert text[i..i + |WatchPrefix|] == (WatchPrefix + id)[..|WatchPrefix|];
      assert NoNewline(text, a, b) by {
        forall k | a <= k < b ensures text[k] != '\n' {
          assert text[k] == (WatchPrefix + id)[k - i];
          assert text[k] == id[k - a];
        }
      }
    } else if !(OccursAt(text, WatchPrefix, from) && NoNewline(text, a, b)) {
      FindWatchIdsComplete(text, from + 1, i, id);
    }
  }

  /** The ids a page recommends: each distinct `watch?v=` id once, never the
      page's own id, so scraping can never add a self-loop. */
  function GetRecommendedIds(text: string, self: string): (recs: seq<string>)
    ensures Distinct(recs)
    ensures self !in recs
    ensures forall r :: r in recs <==> r in FindWatchIds(text, 0) && r != self
    ensures forall r :: r in recs ==> |r| == IdLength && Occurs(text, WatchPrefix + r)
  {
    var all := Dedup(FindWatchIds(text, 0));
    FilterDistinct(all, r => r != self);
    Filter(all, r => r != self)
  }

  /** Where a lazy `(.*?)` that starts at `from` stops when it is followed
      by `close`: the first position at which `close` occurs, provided no
      newline comes before it. */
  function LazyEnd(s: string, from: nat, close: string): (r: Option<nat>)
    requires from <= |s|
    ensures r.Some? ==> from <= r.value <= |s| && OccursAt(s, close, r.value) && NoNewline(s, from, r.value)
    ensures r.Some? ==> forall k :: from <= k < r.value ==> !OccursAt(s, close, k)
    ensures r.None? ==> forall k :: from <= k <= |s| && NoNewline(s, from, k) ==> !OccursAt(s, close, k)
    decreases |s| - from
  {
    if OccursAt(s, close, from) then Some(from)
    else if from == |s| || s[from] == '\n' then None
    else LazyEnd(s, from + 1, close)
  }

  /** `re.findall(open + "(.*?)" + close, text[from..])` for literal `open`
      and `close`. A position where `open` occurs but no `close` follows on
      the same line is not a match, and the search goes on one character
      later. */
  function FindDelimited(text: string, from: nat, open: string, close: string): (caps: seq<string>)
    requires from <= |text| && |open| > 0
    ensures forall c :: c in caps ==> '\n' !in c && Occurs(text, open + c + close)
    decreases |text| - from
  {
    if from == |text| then []
    else if OccursAt(text, open, from) && from + |open| <= |text| && LazyEnd(text, from + |open|, close).Some? then
      var a := from + |open|;
      var b := LazyEnd(text, a, close).value;
      CaptureOccurs(text, from, a, b, open, close);
      [text[a..b]] + FindDelimited(text, b + |close|, open, close)
    else
      FindDelimited(text, from + 1, open, close)
  }

  /** A lazy capture never contains its closing text: it stops at the first
      `close`. */
  lemma LazyCaptureNoClose(s: string, a: nat, close: string)
    requires a <= |s| && |close| > 0 && LazyEnd(s, a, close).Some?
    ensures !Occurs(s[a..LazyEnd(s, a, close).value], close)
  {
    var b := LazyEnd(s, a, close).value;
    var c := s[a..b];
    if Occurs(c, close) {
      var k :| 0 <= k <= |c| && OccursAt(c, close, k);
      assert s[a + k..a + k + |close|] == c[k..k + |close|];
      assert OccursAt(s, close, a + k);
    }
  }

  /** Every `findall` capture of `open + "(.*?)" + close` is free of
      `close`: the shortest match, as a lazy group gives. */
  lemma {:induction false} FindDelimitedShortest(text: string, from: nat, open: string, close: string)
    requires from <= |text| && |open| > 0 && |close| > 0
    ensures forall c :: c in FindDelimited(text, from, open, close) ==> !Occurs(c, close)
    decreases |text| - from
  {
    if from == |text| {
    } else if OccursAt(text, open, from) && from + |open| <= |text| && LazyEnd(text, from + |open|, close).Some? {
      var a := from + |open|;
      var b := LazyEnd(text, a, close).value;
      var rest := FindDelimited(text, b + |close|, open, close);
      assert FindDelimited(text, from, open, close) == [text[a..b]] + rest;
      LazyCaptureNoClose(text, a, close);
      FindDelimitedShortest(text, b + |close|, open, close);
      assert forall c :: c in [text[a..b]] + rest ==> c == text[a..b] || c in rest;
    } else {
      assert FindDelimited(text, from, open, close) == FindDelimited(text, from + 1, open, close);
      FindDelimitedShortest(text, from + 1, open, close);
    }
  }

  /** Where `.*?` + `mid` + `(.*?)` + `close` matches from `from`: the first
      position `j` reachable without crossing a newline at which `mid`
      occurs and the capture after it can be closed. */
  function TwoPartEnd(s: string, from: nat, mid: string, close: string): (r: Option<nat>)
    requires from <= |s|
    ensures r.Some? ==> from <= r.value && OccursAt(s, mid, r.value) && NoNewline(s, from, r.value)
    ensures r.Some? ==> LazyEnd(s, r.value + |mid|, close).Some?
    decreases |s| - from
  {
    if OccursAt(s, mid, from) && LazyEnd(s, from + |mid|, close).Some? then Some(from)
    else if from == |s| || s[from] == '\n' then None
    else
      var rest := TwoPartEnd(s, from + 1, mid, close);
      if rest.None? then None
      else
        NoNewlineCons(s, from, rest.value);
        rest
  }

  /** If `mid` occurs at `j`, reachable from `from` without a newline, and
      its capture can be closed, then `TwoPartEnd` finds a position. */
  lemma {:induction false} TwoPartEndComplete(s: string, from: nat, mid: string, close: string, j: nat)
    requires from <= j && OccursAt(s, mid, j) && NoNewline(s, from, j)
    requires LazyEnd(s, j + |mid|, close).Some?
    ensures TwoPartEnd(s, from, mid, close).Some?
    decreases j - from
  {
    if !(OccursAt(s, mid, from) && LazyEnd(s, from + |mid|, close).Some?) {
      TwoPartEndComplete(s, from + 1, mid, close, j);
    }
  }

  lemma NoNewlineCons(s: string, a: nat, b: nat)
    requires a < b <= |s| && s[a] != '\n' && NoNewline(s, a + 1, b)
    ensures NoNewline(s, a, b)
  {
  }

  /** `re.findall(open + ".*?" + mid + "(.*?)" + close, text[from..])` for
      literal `open`, `mid` and `close`. */
  function FindTwoPart(text: string, from: nat, open: string, mid: string, close: string): (caps: seq<string>)
    requires from <= |text| && |open| > 0
    ensures forall c :: c in caps ==> '\n' !in c && Occurs(text, mid + c + close)
    decreases |text| - from
  {
    if from == |text| then []
    else if OccursAt(text, open, from) && from + |open| <= |text| && TwoPartEnd(text, from + |open|, mid, close).Some? then
      var j := TwoPartEnd(text, from + |open|, mid, close).value;
      var b := LazyEnd(text, j + |mid|, close).value;
      TwoPartCapture(text, j, b, mid, close);
      [text[j + |mid|..b]] + FindTwoPart(text, b + |close|, open, mid, close)
    else
      FindTwoPart(text, from + 1, open, mid, close)
  }

  /** If `open` occurs at `i`, then `mid` at `j` on the same line, then a
      newline-free capture and `close`, all at or after `from`, then
      `findall` finds at least one match. */
  lemma {:induction false} FindTwoPartComplete(text: string, from: nat, open: string, mid: string, close: string,
                                               i: nat, j: nat, c: string)
    requires from <= i && |open| > 0 && '\n' !in c
    requires OccursAt(text, mid + c + close, j)
    requires OccursAt(text, open, i) && i + |open| <= j && NoNewline(text, i + |open|, j)
    ensures FindTwoPart(text, from, open, mid, close) != []
    decreases i - from
  {
    assert from < |text|;
    FindTwoPartStep(text, from, open, mid, close);
    if from == i {
      TwoPartStartsAtOpen(text, open, mid, close, i, j, c);
    } else if !TwoPartStartsAt(text, from, open, mid, close) {
      FindTwoPartComplete(text, from + 1, open, mid, close, i, j, c);
    }
  }

  /** `open` at `i`, then `mid` at `j` on the same line, a newline-free
      capture and `close`: a match starts at `i`. */
  lemma TwoPartStartsAtOpen(text: string, open: string, mid: string, close: string, i: nat, j: nat, c: string)
    requires '\n' !in c
    requires OccursAt(text, mid + c + close, j)
    requires OccursAt(text, open, i) && i + |open| <= j && NoNewline(text, i + |open|, j)
    ensures i <= |text| && TwoPartStartsAt(text, i, open, mid, close)
  {
    assert j + |mid + c + close| <= |text|;
    ClosableAfterMid(text, mid, close, j, c);
    var a := i + |open|;
    assert a <= |text| && OccursAt(text, mid, j) && NoNewline(text, a, j);
    TwoPartEndComplete(text, a, mid, close, j);
    assert TwoPartEnd(text, a, mid, close).Some?;
  }

  /** A match of `FindTwoPart` starts at `from`. */
  predicate TwoPartStartsAt(text: string, from: nat, open: string, mid: string, close: string)
    requires from <= |text|
  {
    OccursAt(text, open, from) && from + |open| <= |text| && TwoPartEnd(text, from + |open|, mid, close).Some?
  }

  /** One step of the scan: a match at `from` is found, otherwise the scan
      moves on to `from + 1`. */
  lemma FindTwoPartStep(text: string, from: nat, open: string, mid: string, close: string)
    requires from < |text| && |open| > 0
    ensures TwoPartStartsAt(text, from, open, mid, close) ==> FindTwoPart(text, from, open, mid, close) != []
    ensures !TwoPartStartsAt(text, from, open, mid, close) ==>
      FindTwoPart(text, from, open, mid, close) == FindTwoPart(text, from + 1, open, mid, close)
  {
  }

  /** `mid`, a newline-free capture and `close` at `j`: the lazy capture
      after `mid` can be closed. */
  lemma ClosableAfterMid(text: string, mid: string, close: string, j: nat, c: string)
    requires '\n' !in c && OccursAt(text, mid + c + close, j)
    ensures OccursAt(text, mid, j) && LazyEnd(text, j + |mid|, close).Some?
  {
    OccursAtParts(text, j, mid, c, close);
    var a := j + |mid|;
    assert NoNewline(text, a, a + |c|) by {
      forall k | a <= k < a + |c| ensures text[k] != '\n' {
        assert text[k] == c[k - a];
      }
    }
  }

  /** The capture after `mid` at `j` has no newline and sits between `mid`
      and `close` in the text. */
  lemma TwoPartCapture(text: string, j: nat, b: nat, mid: string, close: string)
    requires OccursAt(text, mid, j) && LazyEnd(text, j + |mid|, close) == Some(b)
    ensures '\n' !in text[j + |mid|..b] && Occurs(text, mid + text[j + |mid|..b] + close)
  {
    var a := j + |mid|;
    CaptureOccurs(text, j, a, b, mid, close);
    NoNewlineSlice(text, a, b);
  }

  lemma NoNewlineSlice(s: string, a: nat, b: nat)
    requires a <= b <= |s| && NoNewline(s, a, b)
    ensures '\n' !in s[a..b]
  {
    forall k | 0 <= k < b - a ensures s[a..b][k] != '\n' {
      assert s[a..b][k] == s[a + k];
    }
  }

  /** The end of the run of digits that starts at `from`. */
  function DigitsEnd(s: string, from: nat): (e: nat)
    requires from <= |s|
    ensures from <= e <= |s| && AllDigits(s[from..e])
    ensures e == |s| || !IsDigit(s[e])
    decreases |s| - from
  {
    if from == |s| || !IsDigit(s[from]) then from else DigitsEnd(s, from + 1)
  }

  /** A run of `n` digits followed by a non-digit ends exactly there. */
  lemma DigitsEndAt(s: string, from: nat, n: nat)
    requires from + n < |s| && AllDigits(s[from..from + n]) && !IsDigit(s[from + n])
    ensures DigitsEnd(s, from) == from + n
  {
  }

  /** `re.findall(open + '([0-9]+)"', text[from..])` for a literal `open`:
      the greedy run of digits must be followed by a quote. */
  function FindQuotedDigits(text: string, from: nat, open: string): (caps: seq<string>)
    requires from <= |text| && |open| > 0
    ensures forall c :: c in caps ==> |c| >= 1 && AllDigits(c) && Occurs(text, open + c + "\"")
    decreases |text| - from
  {
    if from == |text| then []
    else if OccursAt(text, open, from) then
      var a := from + |open|;
      var b := DigitsEnd(text, a);
      if a < b && OccursAt(text, "\"", b) then
        CaptureOccurs(text, from, a, b, open, "\"");
        [text[a..b]] + FindQuotedDigits(text, b + 1, open)
      else
        FindQuotedDigits(text, from + 1, open)
    else
      FindQuotedDigits(text, from + 1, open)
  }

  // The getters. Python's `set(candidates)` is `Dedup`: only the distinct
  // matches count.

  const TitleOpen := "<title>"
  const TitleClose := " - YouTube</title>"

  /** The three entity replacements of `get_title`, applied one after the
      other: a single pass each, so `&amp;#39;` becomes `&#39;`, not `'`. */
  function Unescape(s: string): string {
    Replace(Replace(Replace(s, "&#39;", "'"), "&amp;", "&"), "&quot;", "\"")
  }

  /** Unescaping adds no character other than the three it substitutes. */
  lemma UnescapeNoNewChar(s: string, c: char)
    requires c !in s && c != '\'' && c != '&' && c != '"'
    ensures c !in Unescape(s)
  {
    var a := Replace(s, "&#39;", "'");
    ReplaceNoNewChar(s, "&#39;", "'", c);
    ReplaceNoNewChar(a, "&amp;", "&", c);
    ReplaceNoNewChar(Replace(a, "&amp;", "&"), "&quot;", "\"", c);
  }

  /** Text without an ampersand has no entity to replace. */
  lemma UnescapePlain(s: string)
    requires '&' !in s
    ensures Unescape(s) == s
  {
    AbsentHead(s, "&#39;");
    ReplaceAbsent(s, "&#39;", "'");
    AbsentHead(s, "&amp;");
    ReplaceAbsent(s, "&amp;", "&");
    AbsentHead(s, "&quot;");
    ReplaceAbsent(s, "&quot;", "\"");
  }

  /** A worked example: each replacement runs once over the text, so the
      doubly escaped apostrophe `&amp;#39;` is decoded one level only. */
  lemma UnescapeOneLevel()
    ensures Unescape("&amp;#39;") == "&#39;"
  {
    ApostropheStepKeeps();
    AmpersandStepDecodes();
    QuoteStepKeeps();
  }

  /** `&amp;#39;` does not start with `&#39;`, and its tail has no `&`. */
  lemma ApostropheStepKeeps()
    ensures Replace("&amp;#39;", "&#39;", "'") == "&amp;#39;"
  {
    var s := "&amp;#39;";
    AbsentHead(s[1..], "&#39;");
    ReplaceAbsent(s[1..], "&#39;", "'");
    assert !StartsWith(s, "&#39;");
    assert s == [s[0]] + s[1..];
  }

  lemma AmpersandStepDecodes()
    ensures Replace("&amp;#39;", "&amp;", "&") == "&#39;"
  {
    var s := "&amp;#39;";
    var t := s[5..];
    assert StartsWith(s, "&amp;");
    assert t == "#39;";
    AbsentHead(t, "&amp;");
    ReplaceAbsent(t, "&amp;", "&");
  }

  lemma QuoteStepKeeps()
    ensures Replace("&#39;", "&quot;", "\"") == "&#39;"
  {
    var u := "&#39;";
    AbsentHead(u[1..], "&quot;");
    ReplaceAbsent(u[1..], "&quot;", "\"");
    assert !StartsWith(u, "&quot;");
    assert u == [u[0]] + u[1..];
  }

  /** The page title: newlines become spaces, exactly one `<title>` element
      ending in ` - YouTube` must be found, and its entities are replaced. */
  function GetTitle(text: string): (r: Result<string>)
    ensures r.Ok? ==> '\n' !in r.value
    ensures r.Ok? ==> exists c :: Occurs(Replace(text, "\n", " "), TitleOpen + c + TitleClose) && Unescape(c) == r.value
    ensures r.Ok? <==> |FindDelimited(Replace(text, "\n", " "), 0, TitleOpen, TitleClose)| == 1
    ensures r.Ok? ==> r.value == Unescape(FindDelimited(Replace(text, "\n", " "), 0, TitleOpen, TitleClose)[0])
    ensures r.Ok? ==>
      exists c :: Occurs(Replace(text, "\n", " "), TitleOpen + c + TitleClose) && !Occurs(c, TitleClose) && Unescape(c) == r.value
  {
    var flat := Replace(text, "\n", " ");
    var caps := FindDelimited(flat, 0, TitleOpen, TitleClose);
    if |caps| != 1 then Err(AssertionFailed("len(candidates) == 1"))
    else
      assert caps[0] in caps;
      FindDelimitedShortest(flat, 0, TitleOpen, TitleClose);
      UnescapeNoNewChar(caps[0], '\n');
      Ok(Unescape(caps[0]))
  }

  const ViewOpen := "\"viewCount\":\""

  /** The view count: one distinct number is the count, two distinct numbers
      (a premium video's two versions) give no count, anything else fails. */
  function GetViewCount(text: string): (r: Result<Option<nat>>)
    ensures var found := Elems(FindQuotedDigits(text, 0, ViewOpen));
      && (r.Ok? <==> 1 <= |found| <= 2)
      && (r == Ok(None) <==> |found| == 2)
      && (forall d :: found == {d} ==> r == Ok(Some(DigitsValue(d))))
    ensures r.Ok? && r.value.Some? ==>
      exists d :: |d| >= 1 && AllDigits(d) && Occurs(text, ViewOpen + d + "\"") && DigitsValue(d) == r.value.value
    ensures r.Ok? && r.value.None? ==>
      exists d, e :: d != e && Occurs(text, ViewOpen + d + "\"") && Occurs(text, ViewOpen + e + "\"")
  {
    var all := FindQuotedDigits(text, 0, ViewOpen);
    match FewOf(all)
    case Neither => Err(AssertionFailed("1 <= len(candidates) <= 2"))
    case Two(d, e) =>
      assert d in Elems(all) && e in Elems(all);
      Ok(None)
    case One(d) =>
      assert d in Elems(all);
      Ok(Some(DigitsValue(d)))
  }

  /** If `open + c + close` occurs at or after `from`, with no newline in
      `c`, then `findall` finds at least one match. */
  lemma {:induction false} FindDelimitedComplete(text: string, from: nat, open: string, close: string, i: nat, c: string)
    requires from <= i && |open| > 0 && '\n' !in c
    requires OccursAt(text, open + c + close, i)
    ensures FindDelimited(text, from, open, close) != []
    decreases i - from
  {
    OccursAtParts(text, i, open, c, close);
    var a := from + |open|;
    if from == i {
      assert OccursAt(text, close, a + |c|);
      assert NoNewline(text, a, a + |c|) by {
        forall k | a <= k < a + |c| ensures text[k] != '\n' {
          assert text[k] == c[k - a];
        }
      }
    } else if !(OccursAt(text, open, from) && from + |open| <= |text| && LazyEnd(text, from + |open|, close).Some?) {
      FindDelimitedComplete(text, from + 1, open, close, i, c);
    }
  }

  /** If `open`, a non-empty run of digits and a quote occur at or after
      `from`, then `findall` finds at least one match. */
  lemma {:induction false} FindQuotedDigitsComplete(text: string, from: nat, open: string, i: nat, d: string)
    requires from <= i && |open| > 0 && |d| >= 1 && AllDigits(d)
    requires OccursAt(text, open + d + "\"", i)
    ensures FindQuotedDigits(text, from, open) != []
    decreases i - from
  {
    if from == i {
      QuotedDigitsMatchHere(text, i, open, d);
    } else {
      FindQuotedDigitsComplete(text, from + 1, open, i, d);
      assert FindQuotedDigits(text, from + 1, open) != [];
    }
  }

  /** `open`, digits and a quote at `i` make a match at `i`. */
  lemma QuotedDigitsMatchHere(text: string, i: nat, open: string, d: string)
    requires |open| > 0 && |d| >= 1 && AllDigits(d)
    requires OccursAt(text, open + d + "\"", i)
    ensures i < |text| && FindQuotedDigits(text, i, open) != []
  {
    OccursAtParts(text, i, open, d, "\"");
    var a := i + |open|;
    assert text[a..a + |d|] == d;
    DigitsEndAt(text, a, |d|);
    assert OccursAt(text, open, i) && OccursAt(text, "\"", a + |d|);
  }

  /** `int(s)` for the strings it can meet here: a non-empty run of decimal
      digits; anything else raises `ValueError`. */
  function ParseInt(s: string): (r: Result<nat>)
    ensures r.Ok? ==> |s| >= 1 && AllDigits(s)
  {
    if |s| >= 1 && AllDigits(s) then Ok(DigitsValue(s)) else Err(NotAnInteger(s))
  }

  /** `int(str(n)) == n` through `ParseInt`. */
  lemma ParseIntRoundTrip(n: nat)
    ensures ParseInt(NatToString(n)) == Ok(n)
  {
    NatToStringRoundTrip(n);
  }

  /** The like count: no label means likes are hidden (`None`); two different
      labels fail. */
  function GetLikeCount(text: string): (r: Result<Option<nat>>)
    ensures var found := Elems(FindDelimited(text, 0, LikeOpen, "\""));
      && (r.Err? <==> |found| > 1)
      && (r == Ok(None) <==> found == {})
      && (forall c :: found == {c} ==> r == Ok(Some(LikeValue(c))))
    ensures r.Ok? && r.value.Some? ==> exists c :: Occurs(text, LikeOpen + c + "\"") && LikeValue(c) == r.value.value
    ensures r.Ok? && r.value.None? ==> forall c :: '\n' !in c ==> !Occurs(text, LikeOpen + c + "\"")
    ensures r.Err? ==> exists c, d :: c != d && Occurs(text, LikeOpen + c + "\"") && Occurs(text, LikeOpen + d + "\"")
  {
    var all := FindDelimited(text, 0, LikeOpen, "\"");
    var one :- AtMostOne(all);
    match one
    case None =>
      assert forall c :: '\n' !in c ==> !Occurs(text, LikeOpen + c + "\"") by {
        forall c | '\n' !in c ensures !Occurs(text, LikeOpen + c + "\"") {
          if Occurs(text, LikeOpen + c + "\"") {
            var i :| 0 <= i <= |text| && OccursAt(text, LikeOpen + c + "\"", i);
            FindDelimitedComplete(text, 0, LikeOpen, "\"", i, c);
          }
        }
      }
      Ok(None)
    case Some(c) => Ok(Some(LikeValue(c)))
  }

  const LikeOpen := "{\"iconType\":\"LIKE\"},\"defaultText\":{\"accessibility\":{\"accessibilityData\":{\"label\":\""

  /** The number in an accessibility label such as `1,234 likes`: no-break
      spaces and commas are dropped, then the first run of digits is the
      count; a label with no digit means no likes. */
  function LikeValue(lbl: string): nat {
    var clean := Replace(Replace(lbl, "\U{A0}", ""), ",", "");
    match FirstDigitRun(clean)
    case None => 0
    case Some(d) => DigitsValue(d)
  }

  /** The cleaned label keeps the label's characters in order, without
      no-break spaces and commas. */
  lemma LikeClean(lbl: string)
    ensures Replace(Replace(lbl, "\U{A0}", ""), ",", "")
         == Filter(Filter(lbl, NotNbsp), NotComma)
  {
    ReplaceCharByEmpty(lbl, '\U{A0}', NotNbsp);
    ReplaceCharByEmpty(Replace(lbl, "\U{A0}", ""), ',', NotComma);
  }

  /** A label without digits counts as zero likes. */
  lemma LikeValueNoDigits(lbl: string)
    requires forall i :: 0 <= i < |lbl| ==> !IsDigit(lbl[i])
    ensures LikeValue(lbl) == 0
  {
    LikeClean(lbl);
    var clean := Replace(Replace(lbl, "\U{A0}", ""), ",", "");
    forall i | 0 <= i < |clean| ensures !IsDigit(clean[i]) {
      assert clean[i] in clean;
    }
  }

  /** A label that starts with `str(n)` and has no other digit reads back
      as `n`, whatever words follow. */
  lemma LikeLabelRoundTrip(n: nat, suffix: string)
    requires forall i :: 0 <= i < |suffix| ==> !IsDigit(suffix[i]) && suffix[i] != ',' && suffix[i] != '\U{A0}'
    ensures LikeValue(NatToString(n) + suffix) == n
  {
    var ns := NatToString(n);
    var s := ns + suffix;
    assert '\U{A0}' !in s && ',' !in s by {
      forall i | 0 <= i < |s| ensures s[i] != '\U{A0}' && s[i] != ',' {
        if i < |ns| {
          assert IsDigit(ns[i]);
        } else {
          assert s[i] == suffix[i - |ns|];
        }
      }
    }
    AbsentHead(s, "\U{A0}");
    ReplaceAbsent(s, "\U{A0}", "");
    AbsentHead(s, ",");
    ReplaceAbsent(s, ",", "");
    FirstDigitRunOfPrefix(ns, suffix);
    NatToStringRoundTrip(n);
  }

  const ChannelOpen := "\"subscribeCommand\":{\"clickTrackingParams\":\""
  const ChannelMid := "\",\"commandMetadata\":{\"webCommandMetadata\":{\"sendPost\":true,\"apiUrl\":\"/youtubei/v1/subscription/subscribe\"}},\"subscribeEndpoint\":{\"channelIds\":[\""
  const ChannelClose := "\"]"

  /** The channel id from the subscribe button; none on an unavailable
      video, and two different ids fail. */
  function GetChannelId(text: string): (r: Result<Option<string>>)
    ensures var found := Elems(FindTwoPart(text, 0, ChannelOpen, ChannelMid, ChannelClose));
      && (r.Err? <==> |found| > 1)
      && (r == Ok(None) <==> found == {})
      && (forall c :: found == {c} ==> r == Ok(Some(c)))
    ensures r.Ok? && r.value.Some? ==> '\n' !in r.value.value && Occurs(text, ChannelMid + r.value.value + ChannelClose)
    ensures r.Err? ==> exists c, d :: c != d && Occurs(text, ChannelMid + c + ChannelClose) && Occurs(text, ChannelMid + d + ChannelClose)
  {
    var all := FindTwoPart(text, 0, ChannelOpen, ChannelMid, ChannelClose);
    var r := AtMostOne(all);
    r
  }

  /** `set(candidates)`, the assertion `len(candidates) <= 1`, and the one
      candidate popped if there is one. */
  function AtMostOne<T(==,!new)>(all: seq<T>): (r: Result<Option<T>>)
    ensures r.Err? <==> |Elems(all)| > 1
    ensures r == Ok(None) <==> Elems(all) == {}
    ensures forall x :: Elems(all) == {x} ==> r == Ok(Some(x))
    ensures r.Ok? && r.value.Some? ==> r.value.value in all
    ensures r.Err? ==> r.error == AssertionFailed("len(candidates) <= 1") && exists x, y :: x in all && y in all && x != y
  {
    match FewOf(all)
    case One(c) =>
      assert c in Elems(all);
      Ok(Some(c))
    case Two(c, d) =>
      assert c in Elems(all) && d in Elems(all);
      Err(AssertionFailed("len(candidates) <= 1"))
    case Neither =>
      if all == [] then Ok(None)
      else
        assert all[0] in Elems(all);
        TwoDistinct(all);
        Err(AssertionFailed("len(candidates) <= 1"))
  }

  const CategoryOpen := "\"category\":\""
  const EscapedAmp := "\\u0026"

  /** The category. A film lists both `Trailers` and `Movies` and is a
      movie; any other pair of different categories fails. */
  function GetCategory(text: string): (r: Result<string>)
    ensures var found := Elems(FindDelimited(text, 0, CategoryOpen, "\""));
      && (r.Ok? <==> |found| == 1 || found == {"Trailers", "Movies"})
      && (found == {"Trailers", "Movies"} ==> r == Ok("Movies"))
      && (forall c :: found == {c} ==> r == Ok(Replace(c, EscapedAmp, "&")))
      && (r == Ok("Movies") ==> found <= {"Trailers", "Movies"})
    ensures r.Ok? ==> exists c :: Occurs(text, CategoryOpen + c + "\"") && r.value == Replace(c, EscapedAmp, "&")
    ensures r.Ok? ==> '\n' !in r.value
  {
    var all := FindDelimited(text, 0, CategoryOpen, "\"");
    var r := CategoryAmong(all);
    r
  }

  /** The category chosen from the captured candidates, before it is tied to
      the page they were captured from. */
  function CategoryAmong(all: seq<string>): (r: Result<string>)
    ensures var found := Elems(all);
      && (r.Ok? <==> |found| == 1 || found == {"Trailers", "Movies"})
      && (found == {"Trailers", "Movies"} ==> r == Ok("Movies"))
      && (forall c :: found == {c} ==> r == Ok(Replace(c, EscapedAmp, "&")))
      && (r == Ok("Movies") ==> found <= {"Trailers", "Movies"})
    ensures r.Ok? ==> exists c :: c in all && r.value == Replace(c, EscapedAmp, "&")
    ensures r.Ok? && (forall c :: c in all ==> '\n' !in c) ==> '\n' !in r.value
  {
    match FewOf(all)
    case Neither => Err(AssertionFailed("1 <= len(candidates) <= 2"))
    case Two(c, d) =>
      PairCases(c, d, "Trailers", "Movies");
      if (c == "Trailers" && d == "Movies") || (c == "Movies" && d == "Trailers") then
        assert "Movies" in Elems(all);
        AbsentHead("Movies", EscapedAmp);
        ReplaceAbsent("Movies", EscapedAmp, "&");
        Ok("Movies")
      else
        Err(AssertionFailed("candidates == {\"Trailers\", \"Movies\"}"))
    case One(c) =>
      assert c in Elems(all);
      MoviesUnescaped(c);
      assert '\n' !in c ==> '\n' !in Replace(c, EscapedAmp, "&") by {
        if '\n' !in c { ReplaceNoNewChar(c, EscapedAmp, "&", '\n'); }
      }
      Ok(Replace(c, EscapedAmp, "&"))
  }

  /** Only `Movies` itself unescapes to `Movies`: an escaped ampersand
      would leave an `&` behind. */
  lemma MoviesUnescaped(c: string)
    ensures Replace(c, EscapedAmp, "&") == "Movies" ==> c == "Movies"
  {
    if Replace(c, EscapedAmp, "&") == "Movies" {
      if Occurs(c, EscapedAmp) {
        ReplaceShowsRep(c, EscapedAmp, "&");
        assert false;
      }
      ReplaceAbsent(c, EscapedAmp, "&");
    }
  }

  const LengthOpen := "\"videoDetails\":"
  const LengthMid := "\"lengthSeconds\":\""

  /** The length in seconds; two different lengths (a premium video) give
      none, and a length that is not a number fails. */
  function GetLength(text: string): (r: Result<Option<nat>>)
    ensures var found := Elems(FindTwoPart(text, 0, LengthOpen, LengthMid, "\""));
      && (r.Ok? ==> 1 <= |found| <= 2)
      && (r == Ok(None) <==> |found| == 2)
      && (forall c :: found == {c} ==>
            r == (if ParseInt(c).Ok? then Ok(Some(ParseInt(c).value)) else Err(ParseInt(c).error)))
    ensures r.Ok? && r.value.Some? ==> exists c :: Occurs(text, LengthMid + c + "\"") && ParseInt(c) == Ok(r.value.value)
    ensures r.Ok? && r.value.None? ==>
      exists c, d :: c != d && Occurs(text, LengthMid + c + "\"") && Occurs(text, LengthMid + d + "\"")
  {
    var all := FindTwoPart(text, 0, LengthOpen, LengthMid, "\"");
    match FewOf(all)
    case Neither => Err(AssertionFailed("1 <= len(candidates) <= 2"))
    case Two(c, d) =>
      assert c in Elems(all) && d in Elems(all);
      Ok(None)
    case One(c) =>
      assert c in Elems(all);
      var n :- ParseInt(c);
      Ok(Some(n))
  }


  const KeywordsOpen := "\"keywords\":["

  /** `keywords.replace('"', "").split(",")`. */
  function KeywordsOf(c: string): (ks: seq<string>)
    ensures |ks| >= 1
    ensures Join(ks, ',') == Filter(c, NotQuote)
  {
    ReplaceCharByEmpty(c, '"', NotQuote);
    JoinSplit(Replace(c, "\"", ""), ',');
    Split(Replace(c, "\"", ""), ',')
  }

  predicate NotQuote(x: char) { x != '"' }
  predicate NotComma(x: char) { x != ',' }
  predicate NotNbsp(x: char) { x != '\U{A0}' }

  /** How a list of strings appears in the page: each quoted, comma-separated. */
  function QuotedList(ks: seq<string>): string
    requires |ks| >= 1
    decreases |ks|
  {
    var q := "\"" + ks[0] + "\"";
    if |ks| == 1 then q else q + "," + QuotedList(ks[1..])
  }

  /** Removing the quotes of a quoted list leaves the comma-joined keywords. */
  lemma {:induction false} UnquoteQuotedList(ks: seq<string>)
    requires |ks| >= 1
    requires forall k :: k in ks ==> '"' !in k
    ensures Filter(QuotedList(ks), NotQuote) == Join(ks, ',')
    decreases |ks|
  {
    var q := "\"" + ks[0] + "\"";
    UnquoteOne(ks[0]);
    if |ks| > 1 {
      var tail := QuotedList(ks[1..]);
      assert QuotedList(ks) == (q + ",") + tail;
      FilterAppend(q + ",", tail, NotQuote);
      FilterAppend(q, ",", NotQuote);
      assert Filter(",", NotQuote) == ",";
      assert forall k :: k in ks[1..] ==> k in ks;
      UnquoteQuotedList(ks[1..]);
      assert Filter(QuotedList(ks), NotQuote) == (ks[0] + ",") + Join(ks[1..], ',');
      assert Join(ks, ',') == ks[0] + [','] + Join(ks[1..], ',');
    }
  }

  /** Removing the quotes around one keyword gives the keyword. */
  lemma UnquoteOne(k: string)
    requires '"' !in k
    ensures Filter("\"" + k + "\"", NotQuote) == k
  {
    FilterAll(k, NotQuote);
    FilterAppend("\"", k, NotQuote);
    FilterAppend("\"" + k, "\"", NotQuote);
    assert Filter("\"", NotQuote) == [];
  }

  /** Keywords without quotes or commas survive the page's list syntax. */
  lemma KeywordsRoundTrip(ks: seq<string>)
    requires |ks| >= 1
    requires forall k :: 0 <= k < |ks| ==> '"' !in ks[k] && ',' !in ks[k]
    ensures KeywordsOf(QuotedList(ks)) == ks
  {
    UnquoteQuotedList(ks);
    ReplaceCharByEmpty(QuotedList(ks), '"', NotQuote);
    SplitJoin(ks, ',');
  }

  /** A list text without a comma gives exactly one keyword: the text
      without its quotes. In particular an empty list `[]` gives one empty
      keyword, not an empty list. */
  lemma KeywordsOfSingle(c: string)
    requires ',' !in c
    ensures KeywordsOf(c) == [Filter(c, NotQuote)]
  {
  }

  /** The keywords: none when the page has no list, two different lists
      fail. */
  function GetKeywords(text: string): (r: Result<seq<string>>)
    ensures var found := Elems(FindDelimited(text, 0, KeywordsOpen, "]"));
      && (r.Err? <==> |found| > 1)
      && (r == Ok([]) <==> found == {})
      && (forall c :: found == {c} ==> r == Ok(KeywordsOf(c)))
    ensures r.Ok? && r.value != [] ==> exists c :: Occurs(text, KeywordsOpen + c + "]") && KeywordsOf(c) == r.value
    ensures r.Ok? && r.value == [] ==> forall c :: '\n' !in c ==> !Occurs(text, KeywordsOpen + c + "]")
    ensures r.Err? ==> exists c, d :: c != d && Occurs(text, KeywordsOpen + c + "]") && Occurs(text, KeywordsOpen + d + "]")
  {
    var all := FindDelimited(text, 0, KeywordsOpen, "]");
    var one :- AtMostOne(all);
    match one
    case None =>
      assert forall c :: '\n' !in c ==> !Occurs(text, KeywordsOpen + c + "]") by {
        forall c | '\n' !in c ensures !Occurs(text, KeywordsOpen + c + "]") {
          if Occurs(text, KeywordsOpen + c + "]") {
            var i :| 0 <= i <= |text| && OccursAt(text, KeywordsOpen + c + "]", i);
            FindDelimitedComplete(text, 0, KeywordsOpen, "]", i, c);
          }
        }
      }
      Ok([])
    case Some(c) => Ok(KeywordsOf(c))
  }
}

=== FILE: filtering.dfy ===
/** Candidate selection (yourtube/filtering_functions.py): order-preserving
    filters over a list of node ids, and the out-edge neighbourhood of the
    source videos that becomes the set of nodes to cluster. The clock is the
    parameter `now`, in whole seconds. */
module Filtering {
  import opened Wrappers
  import opened Seqs
  import opened Graph

  /** 30.4 days, which is a whole number of seconds. */
  const SecondsInMonth: int := 2626560
  /** Twelve such months. */
  const SecondsInYear: int := 31518720

  /** `time() - n years`, rounded down to a whole number of months so that the
      set of recent videos only changes once a month. */
  function StartTime(now: int, n: int): (start: int)
    ensures start % SecondsInMonth == 0
    ensures start <= now - SecondsInYear * n < start + SecondsInMonth
  {
    var raw := now - SecondsInYear * n;
    raw - raw % SecondsInMonth
  }

  /** The node has a `time_added` attribute later than `start`. */
  predicate AddedAfter(g: Graph, start: int, id: Id) {
    id in g.nodes && g.nodes[id].timeAdded.Some? && start < g.nodes[id].timeAdded.value
  }

  function AddedInLastNYears(g: Graph, ids: seq<Id>, now: int, n: int): (r: seq<Id>)
    requires AllIn(g, ids)
    ensures IsSubsequence(r, ids)
    ensures forall id :: id in r <==>
      id in ids && g.nodes[id].timeAdded.Some? && StartTime(now, n) < g.nodes[id].timeAdded.value
    ensures forall id :: id in ids && g.nodes[id].timeAdded.None? ==> id !in r
    ensures forall id :: id in r ==> multiset(r)[id] == multiset(ids)[id]
  {
    var start := StartTime(now, n);
    Filter(ids, id => AddedAfter(g, start, id))
  }

  function OnlyNotWatched(g: Graph, ids: seq<Id>): (r: seq<Id>)
    requires AllIn(g, ids)
    ensures IsSubsequence(r, ids)
    ensures forall id :: id in r <==> id in ids && !g.nodes[id].watched
  {
    Filter(ids, id => !IsWatched(g, id))
  }

  function OnlyWatched(g: Graph, ids: seq<Id>): (r: seq<Id>)
    requires AllIn(g, ids)
    ensures IsSubsequence(r, ids)
    ensures forall id :: id in r <==> id in ids && g.nodes[id].watched
  {
    Filter(ids, id => IsWatched(g, id))
  }

  /** The watched and the not-watched filters split their input: every id
      lands in exactly one of the two, with all its occurrences. */
  lemma WatchedPartition(g: Graph, ids: seq<Id>)
    requires AllIn(g, ids)
    ensures multiset(OnlyWatched(g, ids)) + multiset(OnlyNotWatched(g, ids)) == multiset(ids)
    ensures |OnlyWatched(g, ids)| + |OnlyNotWatched(g, ids)| == |ids|
    ensures forall id :: id in ids ==> (id in OnlyWatched(g, ids) <==> id !in OnlyNotWatched(g, ids))
  {
    FilterPartition(ids, id => IsWatched(g, id), id => !IsWatched(g, id));
  }

  /** Unscraped ids have no category and are dropped whatever `categories` is. */
  function FromCategory(g: Graph, ids: seq<Id>, categories: set<string>): (r: seq<Id>)
    requires AllIn(g, ids)
    ensures IsSubsequence(r, ids)
    ensures forall id :: id in r <==>
      id in ids && g.nodes[id].category.Some? && g.nodes[id].category.value in categories
  {
    Filter(ids, id => id in g.nodes && g.nodes[id].category.Some? && g.nodes[id].category.value in categories)
  }

  function NotDown(g: Graph, ids: seq<Id>): (r: seq<Id>)
    requires AllIn(g, ids)
    ensures IsSubsequence(r, ids)
    ensures forall id :: id in r <==> id in ids && !g.nodes[id].isDown
  {
    Filter(ids, id => !IsDown(g, id))
  }

  ghost predicate OutNeighbourOf(g: Graph, ids: seq<Id>, v: Id) {
    exists u :: u in ids && Edge(g, u, v)
  }

  /** `G.edge_subgraph(G.out_edges(ids)).nodes`: both ends of every edge that
      leaves a member of `ids`. A member without out-edges is not included. */
  function Neighborhood(g: Graph, ids: seq<Id>): (r: set<Id>)
    ensures forall v :: v in r <==> OutNeighbourOf(g, ids, v) || (v in ids && HasOutEdge(g, v))
  {
    var heads := set e | e in g.edges && e.0 in ids :: e.0;
    var tails := set e | e in g.edges && e.0 in ids :: e.1;
    assert forall v :: v in tails <==> OutNeighbourOf(g, ids, v) by {
      forall v ensures v in tails <==> OutNeighbourOf(g, ids, v) {
        if v in tails {
          var e :| e in g.edges && e.0 in ids && e.1 == v;
          assert Edge(g, e.0, v);
        }
        if OutNeighbourOf(g, ids, v) {
          var u :| u in ids && Edge(g, u, v);
          assert (u, v) in g.edges && (u, v).1 == v;
        }
      }
    }
    assert forall v :: v in heads <==> v in ids && HasOutEdge(g, v) by {
      forall v ensures v in heads <==> v in ids && HasOutEdge(g, v) {
        if v in heads {
          var e :| e in g.edges && e.0 in ids && e.0 == v;
          assert Edge(g, v, e.1);
        }
        if v in ids && HasOutEdge(g, v) {
          var w :| Edge(g, v, w);
          assert (v, w) in g.edges && (v, w).0 == v;
        }
      }
    }
    heads + tails
  }

  /** A seed of the neighbourhood: a recent (or, with `useWatched`, a watched)
      video that is not down. */
  predicate IsSeed(g: Graph, useWatched: bool, now: int, u: Id) {
    && u in g.nodes
    && !g.nodes[u].isDown
    && (AddedAfter(g, StartTime(now, 5), u) || (useWatched && g.nodes[u].watched))
  }

  /** The seeds, in node order; watched seeds may be listed twice. */
  function Sources(g: Graph, useWatched: bool, now: int): (r: seq<Id>)
    requires Valid(g)
    ensures forall u :: u in r <==> IsSeed(g, useWatched, now, u)
  {
    var recent := AddedInLastNYears(g, g.order, now, 5);
    var sources := if useWatched then recent + OnlyWatched(g, g.order) else recent;
    NotDown(g, sources)
  }

  /** The nodes to cluster: no duplicates, and exactly the seeds that have an
      out-edge together with every direct out-neighbour of a seed. */
  function SelectNodesToCluster(g: Graph, useWatched: bool, now: int): (r: seq<Id>)
    requires Valid(g)
    ensures Distinct(r)
    ensures forall v :: v in r <==>
      (exists u :: IsSeed(g, useWatched, now, u) && Edge(g, u, v))
      || (IsSeed(g, useWatched, now, v) && HasOutEdge(g, v))
  {
    var seeds := Sources(g, useWatched, now);
    var hood := Neighborhood(g, seeds);
    FilterDistinct(g.order, v => v in hood);
    var r := Filter(g.order, v => v in hood);
    assert forall v :: v in hood ==> v in g.nodes by {
      forall v | v in hood ensures v in g.nodes {
        if OutNeighbourOf(g, seeds, v) {
          var u :| u in seeds && Edge(g, u, v);
        } else {
          var w :| Edge(g, v, w);
        }
      }
    }
    r
  }
}

=== FILE: graph.dfy ===
/** The recommendation graph: a directed graph of videos keyed by their
    11-character id, as the networkx `DiGraph` the application keeps in memory.
    `order` is the node insertion order that networkx iterates in. */
module Graph {
  import opened Wrappers
  import opened Seqs

  type Id = string

  /** Scraped fields the core stores but never reads. */
  datatype Metadata = Metadata(
    title: string,
    viewCount: Option<nat>,
    likeCount: Option<nat>,
    channelId: Option<string>,
    length: Option<nat>,
    keywords: seq<string>)

  /** The node attributes the core reads. An absent `watched` or `is_down`
      attribute is falsy, so it is `false` here. */
  datatype Node = Node(
    timeAdded: Option<int>,
    timeScraped: Option<int>,
    watched: bool,
    isDown: bool,
    category: Option<string>,
    meta: Option<Metadata>)

  /** A node created by `add_node` or `add_edge` without attributes. */
  const Bare := Node(None, None, false, false, None, None)

  datatype Graph = Graph(order: seq<Id>, nodes: map<Id, Node>, edges: set<(Id, Id)>)

  /** The shape networkx guarantees: each node listed once in insertion
      order, and both ends of every edge are nodes. */
  ghost predicate Valid(g: Graph) {
    && Distinct(g.order)
    && (forall v :: v in g.order <==> v in g.nodes)
    && (forall e :: e in g.edges ==> e.0 in g.nodes && e.1 in g.nodes)
  }

  predicate Edge(g: Graph, u: Id, v: Id) {
    (u, v) in g.edges
  }

  ghost predicate HasOutEdge(g: Graph, v: Id) {
    exists w :: Edge(g, v, w)
  }

  predicate NoSelfLoops(g: Graph) {
    forall e :: e in g.edges ==> e.0 != e.1
  }

  /** Every id is a node, so `G.nodes[id]` does not raise. */
  predicate AllIn(g: Graph, ids: seq<Id>) {
    forall id :: id in ids ==> id in g.nodes
  }

  // Truthiness of `node.get(...)` for the boolean attributes.

  predicate IsWatched(g: Graph, id: Id) {
    id in g.nodes && g.nodes[id].watched
  }

  predicate IsDown(g: Graph, id: Id) {
    id in g.nodes && g.nodes[id].isDown
  }

  /** `G.add_node(id)` without attributes: a node already present keeps its
      attributes; a new one is appended to the node order. */
  function AddNode(g: Graph, id: Id): (h: Graph)
    ensures id in h.nodes && h.edges == g.edges
    ensures id in g.nodes ==> h == g
    ensures id !in g.nodes ==> h.nodes[id] == Bare && h.order == g.order + [id]
    ensures forall v :: v != id ==> (v in h.nodes <==> v in g.nodes)
    ensures forall v :: v != id && v in g.nodes ==> h.nodes[v] == g.nodes[v]
    ensures Valid(g) ==> Valid(h)
  {
    if id in g.nodes then g
    else
      var h := Graph(g.order + [id], g.nodes[id := Bare], g.edges);
      assert Valid(g) ==> Distinct(h.order) by {
        if Valid(g) {
          forall i, j | 0 <= i < j < |h.order| ensures h.order[i] != h.order[j] {
            if j == |g.order| {
              assert h.order[i] == g.order[i] && g.order[i] in g.nodes;
            } else {
              assert h.order[i] == g.order[i] && h.order[j] == g.order[j];
            }
          }
        }
      }
      h
  }

  /** Replaces the attributes of a node that is present. */
  function SetNode(g: Graph, id: Id, n: Node): (h: Graph)
    requires id in g.nodes
    ensures h.order == g.order && h.edges == g.edges && h.nodes.Keys == g.nodes.Keys
    ensures h.nodes[id] == n
    ensures forall v :: v != id && v in g.nodes ==> h.nodes[v] == g.nodes[v]
    ensures Valid(g) ==> Valid(h)
  {
    Graph(g.order, g.nodes[id := n], g.edges)
  }

  /** `G.add_edge(u, v)`: adds missing endpoints, then the edge (a second copy
      of an edge is no change). */
  function AddEdge(g: Graph, u: Id, v: Id): (h: Graph)
    ensures h.edges == g.edges + {(u, v)}
    ensures u in h.nodes && v in h.nodes
    ensures forall w :: w != u && w != v ==> (w in h.nodes <==> w in g.nodes)
    ensures forall w :: w in g.nodes ==> w in h.nodes && h.nodes[w] == g.nodes[w]
    ensures Valid(g) ==> Valid(h)
  {
    var h := AddNode(AddNode(g, u), v);
    Graph(h.order, h.nodes, h.edges + {(u, v)})
  }
}

=== FILE: ordering.dfy ===
/** Python's ordering of `str` values (code point by code point, a proper
    prefix first) and `sorted` on a list of strings. */
module Ordering {

  /** `a <= b` on Python strings. */
  predicate LexLe(a: string, b: string)
    decreases |a|
  {
    |a| == 0 || (|b| > 0 && (a[0] < b[0] || (a[0] == b[0] && LexLe(a[1..], b[1..]))))
  }

  lemma {:induction false} LexLeTotal(a: string, b: string)
    ensures LexLe(a, b) || LexLe(b, a)
    decreases |a|
  {
    if |a| > 0 && |b| > 0 && a[0] == b[0] {
      LexLeTotal(a[1..], b[1..]);
    }
  }

  lemma {:induction false} LexLeReflexive(a: string)
    ensures LexLe(a, a)
    decreases |a|
  {
    if |a| > 0 {
      LexLeReflexive(a[1..]);
    }
  }

  lemma {:induction false} LexLeAntisymmetric(a: string, b: string)
    requires LexLe(a, b) && LexLe(b, a)
    ensures a == b
    decreases |a|
  {
    if |a| > 0 {
      LexLeAntisymmetric(a[1..], b[1..]);
      assert a == [a[0]] + a[1..] && b == [b[0]] + b[1..];
    }
  }

  lemma {:induction false} LexLeTransitive(a: string, b: string, c: string)
    requires LexLe(a, b) && LexLe(b, c)
    ensures LexLe(a, c)
    decreases |a|
  {
    if |a| > 0 && a[0] == b[0] && b[0] == c[0] {
      LexLeTransitive(a[1..], b[1..], c[1..]);
    }
  }

  predicate Sorted(s: seq<string>) {
    forall i, j :: 0 <= i < j < |s| ==> LexLe(s[i], s[j])
  }

  /** Inserts `x` into a sorted list, before the first element it does not exceed. */
  function Insert(x: string, s: seq<string>): (r: seq<string>)
    requires Sorted(s)
    ensures Sorted(r)
    ensures multiset(r) == multiset(s) + multiset{x}
    decreases |s|
  {
    if |s| == 0 then [x]
    else if LexLe(x, s[0]) then
      assert forall j :: 0 < j < |s| ==> LexLe(s[0], s[j]);
      InsertHead(x, s);
      [x] + s
    else
      LexLeTotal(x, s[0]);
      var rest := Insert(x, s[1..]);
      assert s == [s[0]] + s[1..];
      assert forall y :: y in rest ==> y == x || y in s[1..] by {
        forall y | y in rest ensures y == x || y in s[1..] {
          assert y in multiset(rest);
        }
      }
      InsertTail(s[0], rest, x, s[1..]);
      [s[0]] + rest
  }

  lemma InsertHead(x: string, s: seq<string>)
    requires Sorted(s) && |s| > 0 && LexLe(x, s[0])
    ensures Sorted([x] + s)
  {
    var r := [x] + s;
    forall i, j | 0 <= i < j < |r| ensures LexLe(r[i], r[j]) {
      if i == 0 && j > 1 {
        LexLeTransitive(x, s[0], s[j - 1]);
      }
    }
  }

  lemma InsertTail(h: string, rest: seq<string>, x: string, t: seq<string>)
    requires Sorted(rest) && Sorted([h] + t) && LexLe(h, x)
    requires forall y :: y in rest ==> y == x || y in t
    ensures Sorted([h] + rest)
  {
    var r := [h] + rest;
    forall i, j | 0 <= i < j < |r| ensures LexLe(r[i], r[j]) {
      if i == 0 {
        assert r[j] == rest[j - 1] && r[j] in rest;
        if r[j] != x {
          var k :| 0 <= k < |t| && t[k] == r[j];
          assert ([h] + t)[0] == h && ([h] + t)[k + 1] == r[j];
        }
      } else {
        assert r[i] == rest[i - 1] && r[j] == rest[j - 1];
      }
    }
  }

  /** Python's `sorted(xs)` for a list of strings. */
  function Sort(s: seq<string>): (r: seq<string>)
    ensures Sorted(r)
    ensures multiset(r) == multiset(s)
  {
    if |s| == 0 then []
    else
      assert s == [s[0]] + s[1..];
      Insert(s[0], Sort(s[1..]))
  }

  /** A sorted arrangement of a multiset of strings is unique. */
  lemma {:induction false} SortedUnique(a: seq<string>, b: seq<string>)
    requires Sorted(a) && Sorted(b) && multiset(a) == multiset(b)
    ensures a == b
    decreases |a|
  {
    assert |a| == |multiset(a)| == |multiset(b)| == |b|;
    if |a| > 0 {
      SortedHeads(a, b);
      TailMultiset(a);
      TailMultiset(b);
      SortedUnique(a[1..], b[1..]);
      assert a == [a[0]] + a[1..] && b == [b[0]] + b[1..];
    }
  }

  /** Two sorted arrangements of one multiset start alike. */
  lemma SortedHeads(a: seq<string>, b: seq<string>)
    requires Sorted(a) && Sorted(b) && multiset(a) == multiset(b)
    requires |a| > 0 && |b| > 0
    ensures a[0] == b[0]
  {
    assert a[0] in multiset(b) && b[0] in multiset(a);
    var i :| 0 <= i < |b| && b[i] == a[0];
    var j :| 0 <= j < |a| && a[j] == b[0];
    LexLeReflexive(a[0]);
    LexLeReflexive(b[0]);
    assert LexLe(b[0], b[i]);
    assert LexLe(a[0], a[j]);
    LexLeAntisymmetric(a[0], b[0]);
  }

  lemma TailMultiset(a: seq<string>)
    requires |a| > 0
    ensures multiset(a[1..]) == multiset(a) - multiset{a[0]}
  {
    assert a == [a[0]] + a[1..];
  }

  /** `sorted` depends only on which strings are listed, not on their order. */
  lemma SortPermutationInvariant(s: seq<string>, t: seq<string>)
    requires multiset(s) == multiset(t)
    ensures Sort(s) == Sort(t)
  {
    SortedUnique(Sort(s), Sort(t));
  }
}

=== FILE: recommender.dfy ===
/** `Recommender` (yourtube/recommendation.py): ranks every clustered video by
    its recent in-neighbours, then picks one video per grandchild cluster at
    a randomly drawn rank position. The triangular draw is the parameter
    `draw`, a function of the numpy seed `seed + length` and of
    `exploration`, as reseeding makes it. */
module Recommending {
  import opened Wrappers
  import opened Seqs
  import opened Graph
  import opened Filtering
  import opened Selection
  import opened Dendrogram

  /** The recent ids among `ids` (the `added_in_last_n_years` default of
      five years) with an edge into `id`. */
  function RecentInNeighbours(g: Graph, ids: seq<Id>, now: int, id: Id): set<Id> {
    set u | u in ids && Filtering.AddedAfter(g, StartTime(now, 5), u) && Edge(g, u, id)
  }

  /** The number of distinct members of `sources` with an edge into `id`. */
  function InDegreeFrom(g: Graph, sources: seq<Id>, id: Id): nat {
    |set u | u in sources && Edge(g, u, id)|
  }

  /** Counting in-edges from the filtered list counts the recent
      in-neighbours, and never more than the distinct sources. */
  lemma InDegreeFromRecent(g: Graph, ids: seq<Id>, now: int, id: Id)
    requires AllIn(g, ids)
    ensures InDegreeFrom(g, AddedInLastNYears(g, ids, now, 5), id) == |RecentInNeighbours(g, ids, now, id)|
    ensures InDegreeFrom(g, AddedInLastNYears(g, ids, now, 5), id) <= |set u | u in AddedInLastNYears(g, ids, now, 5)|
  {
    var sources := AddedInLastNYears(g, ids, now, 5);
    var linked := set u | u in sources && Edge(g, u, id);
    var all := set u | u in sources;
    assert linked == RecentInNeighbours(g, ids, now, id);
    assert all == linked + (all - linked);
  }

  /** `compute_node_ranks(ids)`: a rank for every id, the number of distinct
      recent ids of the list that link to it. */
  function ComputeNodeRanks(g: Graph, ids: seq<Id>, now: int): (ranks: map<Id, nat>)
    requires AllIn(g, ids)
    ensures ranks.Keys == set id | id in ids
    ensures forall id :: id in ranks ==> ranks[id] == |RecentInNeighbours(g, ids, now, id)|
    ensures forall id :: id in ranks ==> ranks[id] <= |set u | u in AddedInLastNYears(g, ids, now, 5)|
  {
    var sources := AddedInLastNYears(g, ids, now, 5);
    assert forall id :: id in ids ==>
      && InDegreeFrom(g, sources, id) == |RecentInNeighbours(g, ids, now, id)|
      && InDegreeFrom(g, sources, id) <= |set u | u in sources|
    by {
      forall id | id in ids
        ensures InDegreeFrom(g, sources, id) == |RecentInNeighbours(g, ids, now, id)|
        ensures InDegreeFrom(g, sources, id) <= |set u | u in sources|
      {
        InDegreeFromRecent(g, ids, now, id);
      }
    }
    map id | id in ids :: InDegreeFrom(g, sources, id)
  }

  /** Python's `int(x)` on a float: truncation toward zero. */
  function Trunc(x: real): (r: int)
    ensures x >= 0.0 ==> r as real <= x < r as real + 1.0
    ensures x < 0.0 ==> r as real - 1.0 < x <= r as real
  {
    if x >= 0.0 then x.Floor else -((-x).Floor)
  }

  /** `np.clip(i, lo, hi)`, which is `min(max(i, lo), hi)`. */
  function Clip(i: int, lo: int, hi: int): (r: int)
    ensures lo <= hi ==> lo <= r <= hi
    ensures lo <= i <= hi ==> r == i
    ensures lo <= hi && i < lo ==> r == lo
    ensures lo <= hi && hi < i ==> r == hi
  {
    if i < lo then (if lo < hi then lo else hi) else if i < hi then i else hi
  }

  /** The index a drawn position stands for: `int(length * position)`,
      clipped into `[0, length - 1]`. */
  function IndexAt(length: nat, position: real): int {
    Clip(Trunc(length as real * position), 0, length - 1)
  }

  /** Why `get_index` raises for an `exploration` it rejects: outside
      `[0, 1]` its assertion fails; at `0` numpy's `triangular(1, 1, 1)`
      raises, because its left and right ends coincide. */
  function ExplorationError(exploration: real): Error {
    if !(0.0 <= exploration <= 1.0) then AssertionFailed("0 <= exploration <= 1")
    else InvalidArgument("left == right")
  }

  /** `get_index(length, exploration)` once the position has been drawn: it
      succeeds exactly for `0 < exploration <= 1`, and then the index is a
      valid position of a non-empty list whatever the draw. */
  function GetIndex(length: nat, exploration: real, position: real): (r: Result<int>)
    ensures r.Ok? <==> 0.0 < exploration <= 1.0
    ensures r.Err? ==> r.error == ExplorationError(exploration)
    ensures r.Ok? && length >= 1 ==> 0 <= r.value < length
  {
    if !(0.0 <= exploration <= 1.0) then Err(AssertionFailed("0 <= exploration <= 1"))
    else if exploration == 0.0 then Err(InvalidArgument("left == right"))
    else Ok(IndexAt(length, position))
  }

  /** A position drawn from `triangular(1 - exploration, 1, 1)` yields an
      index no lower than the one `1 - exploration` stands for: with little
      exploration the pick stays near the top rank. */
  lemma GetIndexExplorationBound(length: nat, exploration: real, position: real)
    requires length >= 1 && 0.0 < exploration <= 1.0
    requires 1.0 - exploration <= position <= 1.0
    ensures IndexAt(length, 1.0 - exploration) <= GetIndex(length, exploration, position).value
  {
    IndexAtMonotone(length, 1.0 - exploration, position);
  }

  lemma IndexAtMonotone(length: nat, a: real, b: real)
    requires length >= 1 && 0.0 <= a <= b
    ensures IndexAt(length, a) <= IndexAt(length, b)
  {
    ScaleMonotone(length as real, a, b);
    TruncMonotone(length as real * a, length as real * b);
  }

  lemma ScaleMonotone(n: real, a: real, b: real)
    requires 0.0 <= n && 0.0 <= a <= b
    ensures 0.0 <= n * a <= n * b
  {
    assert n * b - n * a == n * (b - a);
  }

  lemma TruncMonotone(x: real, y: real)
    requires 0.0 <= x <= y
    ensures Trunc(x) <= Trunc(y)
  {
    assert Trunc(x) as real < Trunc(y) as real + 1.0;
  }

  /** Without exploration there is no distribution to draw from, so
      `get_index` raises rather than pick the top rank. */
  lemma GetIndexWithoutExplorationFails(length: nat, position: real)
    ensures GetIndex(length, 0.0, position) == Err(InvalidArgument("left == right"))
  {
  }

  /** The mode of the draw, `1`, stands for the last index: the video with
      the highest rank. */
  lemma GetIndexAtMode(length: nat, exploration: real)
    requires length >= 1 && 0.0 < exploration <= 1.0
    ensures GetIndex(length, exploration, 1.0) == Ok(length - 1)
  {
    assert Trunc(length as real * 1.0) == length;
  }

  /** The ranks of `ids`, in list order. */
  function RanksOf(ranks: map<Id, nat>, ids: seq<Id>): (rs: seq<int>)
    requires forall id :: id in ids ==> id in ranks
    ensures |rs| == |ids|
    ensures forall j :: 0 <= j < |ids| ==> rs[j] == ranks[ids[j]]
  {
    seq(|ids|, j requires 0 <= j < |ids| => ranks[ids[j]])
  }

  /** `recommend_by_in_degree(ids, params)`: `""` for an empty list, else a
      listed id whose rank is the `index`-th smallest of the list's ranks,
      `index` being `get_index(len(ids), exploration)`. Among equal ranks
      `argpartition` leaves the choice open; this picks the first. */
  function RecommendByInDegree(ranks: map<Id, nat>, ids: seq<Id>, exploration: real, position: real): (r: Result<Id>)
    requires forall id :: id in ids ==> id in ranks
    ensures |ids| == 0 ==> r == Ok("")
    ensures r.Ok? <==> |ids| == 0 || 0.0 < exploration <= 1.0
    ensures r.Err? ==> r.error == ExplorationError(exploration)
    ensures r.Ok? && |ids| > 0 ==>
      && r.value in ids
      && IsKthSmallest(RanksOf(ranks, ids), GetIndex(|ids|, exploration, position).value, ranks[r.value])
  {
    if |ids| == 0 then Ok("")
    else
      var index :- GetIndex(|ids|, exploration, position);
      var rs := RanksOf(ranks, ids);
      var v := KthSmallest(rs, index);
      var p := FirstIndexOf(rs, v);
      Ok(ids[p])
  }

  /** The candidates of one grandchild cluster: its leaves, without the
      watched ones under `hide_watched`. */
  function Candidates(g: Graph, hideWatched: bool, t: ClusterTree): (ids: seq<Id>)
    requires AllIn(g, PreOrder(t))
    ensures IsSubsequence(ids, PreOrder(t))
    ensures forall id :: id in ids <==> id in PreOrder(t) && !(hideWatched && g.nodes[id].watched)
  {
    var leaves := PreOrder(t);
    if hideWatched then OnlyNotWatched(g, leaves)
    else
      FilterAll(leaves, id => true);
      leaves
  }

  /** Every leaf of the cluster is a node and has a rank. */
  predicate Ranked(g: Graph, ranks: map<Id, nat>, t: ClusterTree) {
    AllIn(g, PreOrder(t)) && forall id :: id in PreOrder(t) ==> id in ranks
  }

  /** The cluster has no candidate, so its wall cell is `""`. */
  predicate NothingToShow(g: Graph, ranks: map<Id, nat>, hideWatched: bool, t: ClusterTree)
    requires Ranked(g, ranks, t)
  {
    Candidates(g, hideWatched, t) == []
  }

  /** The position `get_index` draws for a list of `length` ids: numpy is
      seeded with `seed + length` before `triangular(1 - exploration, 1, 1)`. */
  function DrawPosition(draw: (int, real) -> real, seed: int, length: nat, exploration: real): real {
    draw(seed + length, exploration)
  }

  /** The video a wall cell shows: `""` when the cluster has no candidate;
      otherwise a candidate of the cluster whose rank is the `index`-th
      smallest among the candidates' ranks, `index` being the draw of
      `get_index` seeded with `seed + len(ids)`. */
  predicate GoodPick(g: Graph, ranks: map<Id, nat>, hideWatched: bool, exploration: real,
                     seed: int, draw: (int, real) -> real, t: ClusterTree, pick: Id)
    requires Ranked(g, ranks, t)
  {
    var ids := Candidates(g, hideWatched, t);
    var index := GetIndex(|ids|, exploration, DrawPosition(draw, seed, |ids|, exploration));
    && (ids == [] ==> pick == "")
    && (ids != [] ==>
          && pick in ids && pick in PreOrder(t) && !(hideWatched && g.nodes[pick].watched)
          && index.Ok?
          && IsKthSmallest(RanksOf(ranks, ids), index.value, ranks[pick]))
  }

  /** `recommend_by_in_degree` on one grandchild cluster, the position being
      drawn with the seed `seed + len(ids)`. */
  function PickOne(g: Graph, ranks: map<Id, nat>, hideWatched: bool, exploration: real,
                   seed: int, draw: (int, real) -> real, t: ClusterTree): (r: Result<Id>)
    requires Ranked(g, ranks, t)
    ensures r.Ok? <==> 0.0 < exploration <= 1.0 || NothingToShow(g, ranks, hideWatched, t)
    ensures r.Err? ==> r.error == ExplorationError(exploration)
    ensures r.Ok? ==> GoodPick(g, ranks, hideWatched, exploration, seed, draw, t, r.value)
  {
    var ids := Candidates(g, hideWatched, t);
    PickIsGood(g, ranks, hideWatched, exploration, seed, draw, t);
    RecommendByInDegree(ranks, ids, exploration, DrawPosition(draw, seed, |ids|, exploration))
  }

  /** The result of `recommend_by_in_degree` on a cluster's candidates, with
      the draw seeded by their number, is a good pick when it succeeds. */
  lemma PickIsGood(g: Graph, ranks: map<Id, nat>, hideWatched: bool, exploration: real,
                   seed: int, draw: (int, real) -> real, t: ClusterTree)
    requires Ranked(g, ranks, t)
    ensures var ids := Candidates(g, hideWatched, t);
      var r := RecommendByInDegree(ranks, ids, exploration, DrawPosition(draw, seed, |ids|, exploration));
      r.Ok? ==> GoodPick(g, ranks, hideWatched, exploration, seed, draw, t, r.value)
  {
    var ids := Candidates(g, hideWatched, t);
    assert forall id :: id in ids ==> id in ranks;
    var r := RecommendByInDegree(ranks, ids, exploration, DrawPosition(draw, seed, |ids|, exploration));
    if r.Ok? && ids != [] {
      assert r.value in PreOrder(t) && !(hideWatched && g.nodes[r.value].watched);
    }
  }

  /** Every cluster of a row is ranked. */
  predicate RowRanked(g: Graph, ranks: map<Id, nat>, row: seq<ClusterTree>) {
    forall j :: 0 <= j < |row| ==> Ranked(g, ranks, row[j])
  }

  /** No cluster of the row has a candidate. */
  predicate RowEmpty(g: Graph, ranks: map<Id, nat>, hideWatched: bool, row: seq<ClusterTree>)
    requires RowRanked(g, ranks, row)
  {
    forall j :: 0 <= j < |row| ==> NothingToShow(g, ranks, hideWatched, row[j])
  }

  /** One good pick per cluster of the row, in order. */
  predicate GoodRow(g: Graph, ranks: map<Id, nat>, hideWatched: bool, exploration: real,
                    seed: int, draw: (int, real) -> real, row: seq<ClusterTree>, picks: seq<Id>)
    requires RowRanked(g, ranks, row)
  {
    && |picks| == |row|
    && forall j :: 0 <= j < |row| ==> GoodPick(g, ranks, hideWatched, exploration, seed, draw, row[j], picks[j])
  }

  /** The picks for the grandchildren of one child. */
  function BuildRow(g: Graph, ranks: map<Id, nat>, hideWatched: bool, exploration: real,
                    seed: int, draw: (int, real) -> real, row: seq<ClusterTree>): (r: Result<seq<Id>>)
    requires RowRanked(g, ranks, row)
    ensures r.Ok? <==> 0.0 < exploration <= 1.0 || RowEmpty(g, ranks, hideWatched, row)
    ensures r.Err? ==> r.error == ExplorationError(exploration)
    ensures r.Ok? ==> GoodRow(g, ranks, hideWatched, exploration, seed, draw, row, r.value)
  {
    if 0.0 < exploration <= 1.0 || RowEmpty(g, ranks, hideWatched, row) then
      Ok(seq(|row|, j requires 0 <= j < |row| => PickOne(g, ranks, hideWatched, exploration, seed, draw, row[j]).value))
    else
      Err(ExplorationError(exploration))
  }

  /** `build_wall(grandchildren, params)`: one pick per grandchild cluster, in
      the same two-dimensional shape as its input. It raises at the first
      cluster that has a candidate when `exploration` is rejected; every
      cluster raises the same error, so the error does not depend on which. */
  function BuildWall(g: Graph, ranks: map<Id, nat>, hideWatched: bool, exploration: real,
                     seed: int, draw: (int, real) -> real, grandchildren: seq<seq<ClusterTree>>)
    : (r: Result<seq<seq<Id>>>)
    requires forall i :: 0 <= i < |grandchildren| ==> RowRanked(g, ranks, grandchildren[i])
    ensures r.Ok? <==>
      || 0.0 < exploration <= 1.0
      || forall i :: 0 <= i < |grandchildren| ==> RowEmpty(g, ranks, hideWatched, grandchildren[i])
    ensures r.Err? ==> r.error == ExplorationError(exploration)
    ensures r.Ok? ==> |r.value| == |grandchildren|
    ensures r.Ok? ==> forall i :: 0 <= i < |grandchildren| ==>
      GoodRow(g, ranks, hideWatched, exploration, seed, draw, grandchildren[i], r.value[i])
  {
    var gc := grandchildren;
    if 0.0 < exploration <= 1.0 || forall i :: 0 <= i < |gc| ==> RowEmpty(g, ranks, hideWatched, gc[i]) then
      Ok(seq(|gc|, i requires 0 <= i < |gc| => BuildRow(g, ranks, hideWatched, exploration, seed, draw, gc[i]).value))
    else
      Err(ExplorationError(exploration))
  }

}

=== FILE: scraping.dfy ===
/** How yourtube/scraping.py turns a scraped page into graph updates, and
    which videos it decides to scrape. The clock is the parameter `now`; the
    HTTP request, the thread pool and the database writes are not modelled. */
module Scraping {
  import opened Wrappers
  import opened Seqs
  import opened Text
  import opened Graph
  import opened Extraction

  /** Adds the edge `u -> v` for every `v` in `vs`, in order. */
  function AddEdges(g: Graph, u: Id, vs: seq<Id>): (h: Graph)
    ensures h.edges == g.edges + (set v | v in vs :: (u, v))
    ensures forall w :: w in g.nodes ==> w in h.nodes && h.nodes[w] == g.nodes[w]
    ensures forall w :: w in h.nodes <==> w in g.nodes || (|vs| > 0 && w == u) || w in vs
    ensures Valid(g) ==> Valid(h)
    decreases |vs|
  {
    if |vs| == 0 then g
    else
      var h := AddEdges(AddEdge(g, u, vs[0]), u, vs[1..]);
      assert forall v :: v in vs <==> v == vs[0] || v in vs[1..] by {
        assert vs == [vs[0]] + vs[1..];
      }
      h
  }

  /** The attributes `scrape_content` stores for a video that is up. */
  datatype VideoInfo = VideoInfo(category: string, meta: Metadata)

  /** The getters in the order `scrape_content` calls them; the first one
      that raises makes the whole scrape fail. */
  function GetVideoInfo(text: string): (r: Result<VideoInfo>)
    ensures GetTitle(text).Err? ==> r == Err(GetTitle(text).error)
    ensures r.Ok? ==> GetTitle(text).Ok? && r.value.meta.title == GetTitle(text).value
    ensures r.Ok? ==> GetCategory(text).Ok? && r.value.category == GetCategory(text).value
  {
    var title :- GetTitle(text);
    var viewCount :- GetViewCount(text);
    var likeCount :- GetLikeCount(text);
    var channelId :- GetChannelId(text);
    var category :- GetCategory(text);
    var length :- GetLength(text);
    var keywords :- GetKeywords(text);
    Ok(VideoInfo(category, Metadata(title, viewCount, likeCount, channelId, length, keywords)))
  }

  /** A page yields its info exactly when every getter succeeds, and each
      attribute is what its getter returned; the first getter to fail
      decides the error. */
  lemma GetVideoInfoFields(text: string)
    ensures var r := GetVideoInfo(text);
      && (r.Ok? <==>
            && GetTitle(text).Ok? && GetViewCount(text).Ok? && GetLikeCount(text).Ok?
            && GetChannelId(text).Ok? && GetCategory(text).Ok? && GetLength(text).Ok?
            && GetKeywords(text).Ok?)
      && (r.Ok? ==>
            && r.value.category == GetCategory(text).value
            && r.value.meta.title == GetTitle(text).value
            && r.value.meta.viewCount == GetViewCount(text).value
            && r.value.meta.likeCount == GetLikeCount(text).value
            && r.value.meta.channelId == GetChannelId(text).value
            && r.value.meta.length == GetLength(text).value
            && r.value.meta.keywords == GetKeywords(text).value)
      && (GetTitle(text).Ok? && GetViewCount(text).Err? ==> r == Err(GetViewCount(text).error))
  {
  }

  /** A page with at most one recommendation is a removed video. */
  predicate LooksDown(text: string, id: Id) {
    |GetRecommendedIds(text, id)| <= 1
  }

  /** `G.add_node(id_)` then `G.nodes[id_]["is_down"] = True`. */
  function MarkDown(g: Graph, id: Id): (h: Graph)
    ensures h.edges == g.edges && id in h.nodes && h.nodes[id].isDown
    ensures h.nodes.Keys == g.nodes.Keys + {id}
    ensures id in g.nodes ==> h.nodes[id] == g.nodes[id].(isDown := true)
    ensures id !in g.nodes ==> h.nodes[id] == Bare.(isDown := true)
    ensures forall v :: v in g.nodes && v != id ==> v in h.nodes && h.nodes[v] == g.nodes[v]
    ensures Valid(g) ==> Valid(h)
  {
    var h := AddNode(g, id);
    SetNode(h, id, h.nodes[id].(isDown := true))
  }

  /** `G.add_node(id_, **video_info)` then `G.add_edge(id_, rec)` for each
      recommendation: the scraped attributes are merged into the node. */
  function RecordScrape(g: Graph, id: Id, info: VideoInfo, recs: seq<Id>, now: int): (h: Graph)
    ensures h.edges == g.edges + (set v | v in recs :: (id, v))
    ensures id in h.nodes
    ensures h.nodes[id].timeScraped == Some(now) && h.nodes[id].category == Some(info.category)
    ensures h.nodes[id].meta == Some(info.meta)
    ensures h.nodes.Keys == g.nodes.Keys + {id} + (set v | v in recs)
    ensures id in g.nodes ==>
      && h.nodes[id].isDown == g.nodes[id].isDown
      && h.nodes[id].watched == g.nodes[id].watched
      && h.nodes[id].timeAdded == g.nodes[id].timeAdded
    ensures id !in g.nodes ==>
      && !h.nodes[id].isDown && !h.nodes[id].watched && h.nodes[id].timeAdded == None
    ensures forall v :: v in g.nodes && v != id ==> v in h.nodes && h.nodes[v] == g.nodes[v]
    ensures Valid(g) ==> Valid(h)
  {
    var h := AddNode(g, id);
    var n := h.nodes[id].(timeScraped := Some(now), category := Some(info.category), meta := Some(info.meta));
    AddEdges(SetNode(h, id, n), id, recs)
  }

  /** The graph branch of `scrape_content`: a removed video is added (if
      needed) and marked down; otherwise its scraped attributes are merged
      into its node and an edge to each recommendation is added. Attributes
      the scrape does not set (`watched`, `time_added`, `is_down`) are kept,
      no other node changes, and the graph stays well formed and free of
      self-loops. */
  function ScrapeContent(g: Graph, text: string, id: Id, now: int): (r: Result<Graph>)
    ensures r.Ok? <==> LooksDown(text, id) || GetVideoInfo(text).Ok?
    ensures r.Err? ==> r.error == GetVideoInfo(text).error
    ensures r.Ok? ==> id in r.value.nodes
    ensures r.Ok? && LooksDown(text, id) ==>
      && r.value.edges == g.edges
      && r.value.nodes.Keys == g.nodes.Keys + {id}
      && r.value.nodes[id].isDown
      && (id in g.nodes ==> r.value.nodes[id] == g.nodes[id].(isDown := true))
      && (id !in g.nodes ==> r.value.nodes[id] == Bare.(isDown := true))
    ensures r.Ok? && !LooksDown(text, id) ==>
      var h, info := r.value, GetVideoInfo(text).value;
      && h.edges == g.edges + (set v | v in GetRecommendedIds(text, id) :: (id, v))
      && h.nodes.Keys == g.nodes.Keys + {id} + (set v | v in GetRecommendedIds(text, id))
      && h.nodes[id].timeScraped == Some(now)
      && h.nodes[id].category == Some(info.category)
      && h.nodes[id].meta == Some(info.meta)
      && (id in g.nodes ==>
            && h.nodes[id].isDown == g.nodes[id].isDown
            && h.nodes[id].watched == g.nodes[id].watched
            && h.nodes[id].timeAdded == g.nodes[id].timeAdded)
      && (id !in g.nodes ==> !h.nodes[id].isDown && !h.nodes[id].watched && h.nodes[id].timeAdded == None)
    ensures r.Ok? ==> forall v :: v in g.nodes && v != id ==> v in r.value.nodes && r.value.nodes[v] == g.nodes[v]
    ensures r.Ok? && Valid(g) ==> Valid(r.value)
    ensures r.Ok? && NoSelfLoops(g) ==> NoSelfLoops(r.value)
  {
    var recs := GetRecommendedIds(text, id);
    if |recs| <= 1 then Ok(MarkDown(g, id))
    else
      var info :- GetVideoInfo(text);
      var h := RecordScrape(g, id, info, recs, now);
      NewEdgesNotLoops(g, h, id, recs);
      Ok(h)
  }

  /** Edges from `id` to ids other than `id` add no self-loop. */
  lemma NewEdgesNotLoops(g: Graph, h: Graph, id: Id, recs: seq<Id>)
    requires id !in recs
    requires h.edges == g.edges + (set v | v in recs :: (id, v))
    ensures NoSelfLoops(g) ==> NoSelfLoops(h)
  {
    if NoSelfLoops(g) {
      forall e | e in h.edges ensures e.0 != e.1 {
        if e !in g.edges {
          var v :| v in recs && e == (id, v);
        }
      }
    }
  }

  /** `skip_if_fresher_than`: `None`, a number of seconds, or `float("inf")`. */
  datatype Threshold = Unset | Seconds(s: int) | Infinite

  /** `time() - time_scraped < skip_if_fresher_than` for a set threshold. */
  predicate Fresher(age: int, t: Threshold) {
    match t
    case Unset => false
    case Seconds(s) => age < s
    case Infinite => true
  }

  /** The graph branch of `choose_which_video_to_skip` for one id: a video
      the graph does not know is scraped; a known one is skipped when it is
      down or was scraped recently. */
  predicate KeepInGraph(g: Graph, t: Threshold, now: int, id: Id) {
    id !in g.nodes
    || (&& !g.nodes[id].isDown
        && !(t != Unset && g.nodes[id].timeScraped.Some? && Fresher(now - g.nodes[id].timeScraped.value, t)))
  }

  function ChooseWhichVideoToSkip(g: Graph, ids: seq<Id>, t: Threshold, now: int): (r: seq<Id>)
    ensures IsSubsequence(r, ids)
    ensures forall id :: id in ids && id !in g.nodes ==> id in r
    ensures forall id :: id in g.nodes && g.nodes[id].isDown ==> id !in r
    ensures forall id ::
      (id in g.nodes && g.nodes[id].timeScraped.Some? && t != Unset
       && Fresher(now - g.nodes[id].timeScraped.value, t)) ==> id !in r
    ensures forall id ::
      (id in ids && id in g.nodes && !g.nodes[id].isDown
       && (t == Unset || g.nodes[id].timeScraped.None?)) ==> id in r
    ensures forall id ::
      (id in ids && id in g.nodes && !g.nodes[id].isDown && g.nodes[id].timeScraped.Some?
       && !Fresher(now - g.nodes[id].timeScraped.value, t)) ==> id in r
    ensures forall id :: id in r <==> id in ids && KeepInGraph(g, t, now, id)
    ensures forall id :: id in r ==> multiset(r)[id] == multiset(ids)[id]
  {
    Filter(ids, id => KeepInGraph(g, t, now, id))
  }

  /** What the database returns for a video: nothing when it is absent,
      else its `time_scraped` (maybe missing) and its `is_down` flag. */
  type DbRecord = Option<(Option<int>, bool)>

  /** The database branch of `choose_which_video_to_skip` for one id, as
      its sequence of early exits. */
  predicate KeepByDb(rec: DbRecord, t: Threshold, now: int) {
    match rec
    case None => true
    case Some((timeScraped, isDown)) =>
      if isDown then false
      else if timeScraped.None? then true
      else if t.Unset? then true
      else if Fresher(now - timeScraped.value, t) then false
      else true
  }

  /** The record the database would hold for a video of the graph. */
  function RecordOf(g: Graph, id: Id): DbRecord {
    if id in g.nodes then Some((g.nodes[id].timeScraped, g.nodes[id].isDown)) else None
  }

  /** Both branches take the same decision when the database holds what the
      graph holds. */
  lemma DbAgreesWithGraph(g: Graph, t: Threshold, now: int, id: Id)
    ensures KeepByDb(RecordOf(g, id), t, now) == KeepInGraph(g, t, now, id)
  {
  }

  /** The database branch over a list, with the lookup as a parameter. */
  function ChooseByDb(ids: seq<Id>, lookup: Id -> DbRecord, t: Threshold, now: int): (r: seq<Id>)
    ensures IsSubsequence(r, ids)
    ensures forall id :: id in r <==> id in ids && KeepByDb(lookup(id), t, now)
  {
    Filter(ids, id => KeepByDb(lookup(id), t, now))
  }

  /** Over a whole list, the database branch with the graph's records keeps
      exactly what the graph branch keeps, in the same order. */
  lemma {:induction false} ChooseByDbAgrees(g: Graph, ids: seq<Id>, t: Threshold, now: int)
    ensures ChooseByDb(ids, id => RecordOf(g, id), t, now) == ChooseWhichVideoToSkip(g, ids, t, now)
    decreases |ids|
  {
    if |ids| > 0 {
      ChooseByDbAgrees(g, ids[1..], t, now);
      DbAgreesWithGraph(g, t, now, ids[0]);
      FilterStep(ids, id => KeepByDb(RecordOf(g, id), t, now));
      FilterStep(ids, id => KeepInGraph(g, t, now, id));
    }
  }

  predicate NonEmpty(id: Id) {
    id != ""
  }

  /** The ids `scrape_from_list` hands to the thread pool: the wall
      flattened row by row, without the `""` of empty clusters, and without
      the skipped videos. */
  function ScrapeQueue(g: Graph, wall: seq<seq<Id>>, t: Threshold, now: int): (r: seq<Id>)
    ensures IsSubsequence(r, Flatten(wall))
    ensures "" !in r
    ensures forall id :: id in r <==>
      (exists i :: 0 <= i < |wall| && id in wall[i]) && id != "" && KeepInGraph(g, t, now, id)
  {
    var flat := Flatten(wall);
    var ids := Filter(flat, NonEmpty);
    var r := ChooseWhichVideoToSkip(g, ids, t, now);
    SubsequenceTransitive(r, ids, flat);
    assert forall id :: id in r <==> id in ids && KeepInGraph(g, t, now, id);
    assert forall id :: id in ids <==> id in flat && id != "";
    r
  }

  /** A year of 365 days, as `only_added_in_last_n_years` counts it. */
  const SecondsInYear365 := 60 * 60 * 24 * 365

  /** `time() - seconds_in_year * n`, without rounding. */
  function YearsAgo(now: int, n: int): int {
    now - SecondsInYear365 * n
  }

  function Zip(xs: seq<Id>, ys: seq<int>): (ps: seq<(Id, int)>)
    ensures |ps| == if |xs| < |ys| then |xs| else |ys|
    ensures forall k :: 0 <= k < |ps| ==> ps[k] == (xs[k], ys[k])
  {
    if |xs| == 0 || |ys| == 0 then [] else [(xs[0], ys[0])] + Zip(xs[1..], ys[1..])
  }

  function Unzip(ps: seq<(Id, int)>): (r: (seq<Id>, seq<int>))
    ensures |r.0| == |ps| && |r.1| == |ps|
    ensures forall k :: 0 <= k < |ps| ==> ps[k] == (r.0[k], r.1[k])
  {
    if |ps| == 0 then ([], [])
    else
      var rest := Unzip(ps[1..]);
      ([ps[0].0] + rest.0, [ps[0].1] + rest.1)
  }

  /** `zip(*pairs)` undoes `zip`. */
  lemma ZipUnzip(ps: seq<(Id, int)>)
    ensures Zip(Unzip(ps).0, Unzip(ps).1) == ps
  {
  }

  /** The test `start < time_added` on a pair, as a function value. */
  function AddedAfter(start: int): ((Id, int)) -> bool {
    (p: (Id, int)) => start < p.1
  }

  /** The kept pairs are all recent, and nothing is kept when no pair is. */
  lemma KeptAreRecent(ids: seq<Id>, times: seq<int>, start: int)
    ensures forall q :: q in Filter(Zip(ids, times), AddedAfter(start)) ==> start < q.1
    ensures (forall k :: 0 <= k < |ids| && k < |times| ==> times[k] <= start) ==>
      Filter(Zip(ids, times), AddedAfter(start)) == []
  {
    var ps := Zip(ids, times);
    var kept := Filter(ps, AddedAfter(start));
    if kept != [] {
      assert kept[0] in ps;
      var k :| 0 <= k < |ps| && ps[k] == kept[0];
      assert ps[k].1 == times[k];
    }
  }

  lemma UnzipRecent(kept: seq<(Id, int)>, start: int)
    requires forall q :: q in kept ==> start < q.1
    ensures forall k :: 0 <= k < |Unzip(kept).1| ==> start < Unzip(kept).1[k]
  {
    forall k | 0 <= k < |Unzip(kept).1| ensures start < Unzip(kept).1[k] {
      assert kept[k] in kept;
    }
  }

  /** Keeps the (id, time added) pairs added in the last `n` years, as two
      lists of equal length; `zip` stops at the shorter input. */
  function OnlyAddedInLastNYears(ids: seq<Id>, times: seq<int>, now: int, n: int): (r: (seq<Id>, seq<int>))
    ensures |r.0| == |r.1|
    ensures Zip(r.0, r.1) == Filter(Zip(ids, times), AddedAfter(YearsAgo(now, n)))
    ensures forall k :: 0 <= k < |r.1| ==> YearsAgo(now, n) < r.1[k]
    ensures (forall k :: 0 <= k < |ids| && k < |times| ==> times[k] <= YearsAgo(now, n)) ==> r == ([], [])
  {
    var start := YearsAgo(now, n);
    var kept := Filter(Zip(ids, times), AddedAfter(start));
    ZipUnzip(kept);
    KeptAreRecent(ids, times, start);
    UnzipRecent(kept, start);
    Unzip(kept)
  }
}

=== FILE: selection.dfy ===
/** Order statistics over a list of ranks: what `np.argpartition(ranks, k)[k]`
    promises, namely a position holding the `k`-th smallest value (0-based). */
module Selection {
  import opened Seqs

  function Below(v: int): int -> bool {
    x => x < v
  }

  function AtMost(v: int): int -> bool {
    x => x <= v
  }

  /** How many entries are smaller than `v`, and how many do not exceed it. */
  function CountBelow(s: seq<int>, v: int): nat {
    |Filter(s, Below(v))|
  }

  function CountAtMost(s: seq<int>, v: int): nat {
    |Filter(s, AtMost(v))|
  }

  /** `v` is the `k`-th smallest entry of `s`: it occurs in `s`, at most `k`
      entries are smaller and more than `k` do not exceed it. */
  predicate IsKthSmallest(s: seq<int>, k: nat, v: int) {
    v in s && CountBelow(s, v) <= k < CountAtMost(s, v)
  }

  predicate SortedInts(s: seq<int>) {
    forall i, j :: 0 <= i < j < |s| ==> s[i] <= s[j]
  }

  function InsertInt(x: int, s: seq<int>): (r: seq<int>)
    requires SortedInts(s)
    ensures SortedInts(r)
    ensures multiset(r) == multiset(s) + multiset{x}
    decreases |s|
  {
    if |s| == 0 || x <= s[0] then
      ConsSorted(x, s);
      [x] + s
    else
      var rest := InsertInt(x, s[1..]);
      assert s == [s[0]] + s[1..];
      assert forall y :: y in rest ==> s[0] <= y by {
        forall y | y in rest ensures s[0] <= y {
          assert y in multiset(rest);
        }
      }
      ConsSorted(s[0], rest);
      [s[0]] + rest
  }

  lemma ConsSorted(h: int, t: seq<int>)
    requires SortedInts(t) && forall y :: y in t ==> h <= y
    ensures SortedInts([h] + t)
  {
    var r := [h] + t;
    forall i, j | 0 <= i < j < |r| ensures r[i] <= r[j] {
      assert r[j] == t[j - 1] && t[j - 1] in t;
      if i > 0 {
        assert r[i] == t[i - 1];
      }
    }
  }

  function SortInts(s: seq<int>): (r: seq<int>)
    ensures SortedInts(r)
    ensures multiset(r) == multiset(s)
  {
    if |s| == 0 then []
    else
      assert s == [s[0]] + s[1..];
      InsertInt(s[0], SortInts(s[1..]))
  }

  /** Filtering counts depend only on the multiset of entries. */
  lemma FilterCountPermutation(a: seq<int>, b: seq<int>, p: int -> bool)
    requires multiset(a) == multiset(b)
    ensures |Filter(a, p)| == |Filter(b, p)|
  {
    var fa, fb := Filter(a, p), Filter(b, p);
    assert forall x :: multiset(fa)[x] == multiset(fb)[x];
    assert multiset(fa) == multiset(fb);
    assert |multiset(fa)| == |multiset(fb)|;
  }

  /** A weaker test passes at least as many entries. */
  lemma {:induction false} FilterCountMonotone(s: seq<int>, p: int -> bool, q: int -> bool)
    requires forall x :: p(x) ==> q(x)
    ensures |Filter(s, p)| <= |Filter(s, q)|
    decreases |s|
  {
    if |s| > 0 {
      FilterStep(s, p);
      FilterStep(s, q);
      FilterCountMonotone(s[1..], p, q);
    }
  }

  /** A filter that passes nothing yields nothing. */
  lemma {:induction false} FilterNone(s: seq<int>, p: int -> bool)
    requires forall x :: x in s ==> !p(x)
    ensures Filter(s, p) == []
    decreases |s|
  {
    if |s| > 0 {
      var h := s[0];
      assert h in s;
      assert !p(h);
      assert forall x :: x in s[1..] ==> x in s;
      FilterStep(s, p);
      FilterNone(s[1..], p);
      assert Filter(s, p) == [] + Filter(s[1..], p);
    }
  }

  /** In a sorted list the entry at position `k` is the `k`-th smallest. */
  lemma SortedKth(s: seq<int>, k: nat)
    requires SortedInts(s) && k < |s|
    ensures IsKthSmallest(s, k, s[k])
  {
    SortedBelow(s, k);
    SortedAtMost(s, k);
  }

  /** Only entries before position `k` can be smaller than `s[k]`. */
  lemma SortedBelow(s: seq<int>, k: nat)
    requires SortedInts(s) && k < |s|
    ensures CountBelow(s, s[k]) <= k
  {
    var v := s[k];
    var front, back := s[..k], s[k..];
    assert s == front + back;
    FilterAppend(front, back, Below(v));
    SortedSuffixNotBelow(s, k);
    FilterNone(back, Below(v));
  }

  lemma SortedSuffixNotBelow(s: seq<int>, k: nat)
    requires SortedInts(s) && k < |s|
    ensures forall x :: x in s[k..] ==> !Below(s[k])(x)
  {
    forall x | x in s[k..] ensures s[k] <= x {
      var j :| k <= j < |s| && s[j] == x;
    }
  }

  /** Every entry up to position `k` is at most `s[k]`. */
  lemma SortedAtMost(s: seq<int>, k: nat)
    requires SortedInts(s) && k < |s|
    ensures k < CountAtMost(s, s[k])
  {
    var v := s[k];
    var front, back := s[..k + 1], s[k + 1..];
    assert s == front + back;
    FilterAppend(front, back, AtMost(v));
    SortedPrefixAtMost(s, k, front);
    FilterAll(front, AtMost(v));
  }

  lemma SortedPrefixAtMost(s: seq<int>, k: nat, front: seq<int>)
    requires SortedInts(s) && k < |s| && front == s[..k + 1]
    ensures forall x :: x in front ==> AtMost(s[k])(x)
  {
    forall x | x in front ensures x <= s[k] {
      var j :| 0 <= j <= k && s[j] == x;
    }
  }

  /** The `k`-th smallest value is unique, so the contract of a selection
      determines the rank it returns. */
  lemma KthSmallestUnique(s: seq<int>, k: nat, v: int, w: int)
    requires IsKthSmallest(s, k, v) && IsKthSmallest(s, k, w)
    ensures v == w
  {
    if v < w {
      FilterCountMonotone(s, AtMost(v), Below(w));
    } else if w < v {
      FilterCountMonotone(s, AtMost(w), Below(v));
    }
  }

  /** The `k`-th smallest entry of a non-empty list. */
  function KthSmallest(s: seq<int>, k: nat): (v: int)
    requires k < |s|
    ensures IsKthSmallest(s, k, v)
  {
    var sorted := SortInts(s);
    assert |sorted| == |multiset(sorted)| == |multiset(s)| == |s|;
    SortedKth(sorted, k);
    FilterCountPermutation(sorted, s, Below(sorted[k]));
    FilterCountPermutation(sorted, s, AtMost(sorted[k]));
    assert sorted[k] in multiset(s);
    sorted[k]
  }

  /** The first position holding `v`. */
  function FirstIndexOf(s: seq<int>, v: int): (p: nat)
    requires v in s
    ensures p < |s| && s[p] == v
    ensures forall j :: 0 <= j < p ==> s[j] != v
  {
    if s[0] == v then 0 else 1 + FirstIndexOf(s[1..], v)
  }
}

=== FILE: seqs.dfy ===
/** Order-preserving sequence combinators shared by every filter of the model:
    subsequence, filtering, de-duplication and flattening. */
module Seqs {

  /** `a` can be obtained from `b` by deleting elements (order kept). */
  predicate IsSubsequence<T(==)>(a: seq<T>, b: seq<T>)
    decreases |b|
  {
    if |b| == 0 then |a| == 0
    else (|a| > 0 && a[0] == b[0] && IsSubsequence(a[1..], b[1..])) || IsSubsequence(a, b[1..])
  }

  predicate Distinct<T(==)>(s: seq<T>) {
    forall i, j :: 0 <= i < j < |s| ==> s[i] != s[j]
  }

  lemma {:induction false} EmptyIsSubsequence<T>(b: seq<T>)
    ensures IsSubsequence([], b)
    decreases |b|
  {
    if |b| > 0 {
      EmptyIsSubsequence(b[1..]);
    }
  }

  lemma {:induction false} SubsequenceTransitive<T>(a: seq<T>, b: seq<T>, c: seq<T>)
    requires IsSubsequence(a, b) && IsSubsequence(b, c)
    ensures IsSubsequence(a, c)
    decreases |c|
  {
    if |c| == 0 {
    } else if |b| > 0 && b[0] == c[0] && IsSubsequence(b[1..], c[1..]) {
      if |a| == 0 {
        EmptyIsSubsequence(c);
      } else if a[0] == b[0] && IsSubsequence(a[1..], b[1..]) {
        SubsequenceTransitive(a[1..], b[1..], c[1..]);
      } else {
        SubsequenceTransitive(a, b[1..], c[1..]);
      }
    } else {
      SubsequenceTransitive(a, b, c[1..]);
    }
  }

  lemma DistinctCons<T>(x: T, t: seq<T>)
    ensures Distinct([x] + t) <==> x !in t && Distinct(t)
  {
    var s := [x] + t;
    if x !in t && Distinct(t) {
      forall i, j | 0 <= i < j < |s| ensures s[i] != s[j] {
        if i > 0 {
          assert s[i] == t[i - 1] && s[j] == t[j - 1];
        } else {
          assert s[j] == t[j - 1];
        }
      }
    }
    if Distinct(s) {
      forall k | 0 <= k < |t| ensures t[k] != x {
        assert s[k + 1] == t[k] && s[0] == x;
      }
      forall i, j | 0 <= i < j < |t| ensures t[i] != t[j] {
        assert t[i] == s[i + 1] && t[j] == s[j + 1];
      }
    }
  }

  /** The elements of `s` satisfying `p`, in their original order: the shape
      of every generator of the form `for x in xs: if p(x): yield x`. */
  function Filter<T(!new)>(s: seq<T>, p: T -> bool): (r: seq<T>)
    ensures |r| <= |s|
    ensures IsSubsequence(r, s)
    ensures forall x :: x in r <==> x in s && p(x)
    ensures forall x :: multiset(r)[x] == if p(x) then multiset(s)[x] else 0
  {
    if |s| == 0 then []
    else
      assert s == [s[0]] + s[1..];
      var rest := Filter(s[1..], p);
      if p(s[0]) then
        assert ([s[0]] + rest)[1..] == rest;
        [s[0]] + rest
      else
        rest
  }

  /** Filtering keeps a sequence whose elements all pass. */
  lemma {:induction false} FilterAll<T(!new)>(s: seq<T>, p: T -> bool)
    requires forall x :: x in s ==> p(x)
    ensures Filter(s, p) == s
    decreases |s|
  {
    if |s| > 0 {
      FilterAll(s[1..], p);
      assert s == [s[0]] + s[1..];
    }
  }

  lemma FilterStep<T(!new)>(s: seq<T>, p: T -> bool)
    requires |s| > 0
    ensures Filter(s, p) == (if p(s[0]) then [s[0]] else []) + Filter(s[1..], p)
  {
  }

  lemma AppendAssoc<T>(a: seq<T>, b: seq<T>, c: seq<T>)
    ensures a + (b + c) == (a + b) + c
  {
  }

  /** Filtering a concatenation filters each part. */
  lemma {:induction false} FilterAppend<T(!new)>(a: seq<T>, b: seq<T>, p: T -> bool)
    ensures Filter(a + b, p) == Filter(a, p) + Filter(b, p)
    decreases |a|
  {
    if |a| == 0 {
      assert a + b == b;
    } else {
      var ab := a + b;
      assert ab[0] == a[0] && ab[1..] == a[1..] + b;
      var head: seq<T> := if p(a[0]) then [a[0]] else [];
      var fa, fb, ft := Filter(a, p), Filter(b, p), Filter(a[1..], p);
      assert fa == head + ft by { FilterStep(a, p); }
      assert Filter(ab, p) == head + Filter(a[1..] + b, p) by {
        FilterStep(ab, p);
        assert Filter(ab[1..], p) == Filter(a[1..] + b, p);
      }
      FilterAppend(a[1..], b, p);
      AppendAssoc(head, ft, fb);
    }
  }

  lemma {:induction false} FilterDistinct<T(!new)>(s: seq<T>, p: T -> bool)
    requires Distinct(s)
    ensures Distinct(Filter(s, p))
    decreases |s|
  {
    if |s| > 0 {
      DistinctCons(s[0], s[1..]);
      assert s == [s[0]] + s[1..];
      FilterDistinct(s[1..], p);
      if p(s[0]) {
        DistinctCons(s[0], Filter(s[1..], p));
      }
    }
  }

  /** `Filter` with a predicate and with its negation split the input: each
      element goes to exactly one side, with its full multiplicity. */
  lemma FilterPartition<T(!new)>(s: seq<T>, p: T -> bool, q: T -> bool)
    requires forall x :: q(x) == !p(x)
    ensures multiset(Filter(s, p)) + multiset(Filter(s, q)) == multiset(s)
    ensures |Filter(s, p)| + |Filter(s, q)| == |s|
  {
    var a, b := Filter(s, p), Filter(s, q);
    assert forall x :: (multiset(a) + multiset(b))[x] == multiset(s)[x];
    assert multiset(a) + multiset(b) == multiset(s);
    assert |multiset(a) + multiset(b)| == |multiset(s)|;
  }

  /** The elements of a list: Python's `set(xs)`. */
  function Elems<T>(s: seq<T>): set<T> {
    set x | x in s
  }

  /** A list without repeats has as many elements as its set. */
  lemma {:induction false} DistinctCard<T>(s: seq<T>)
    requires Distinct(s)
    ensures |Elems(s)| == |s|
    decreases |s|
  {
    if |s| > 0 {
      assert s == [s[0]] + s[1..];
      DistinctCons(s[0], s[1..]);
      DistinctCard(s[1..]);
      assert Elems(s) == {s[0]} + Elems(s[1..]);
    }
  }

  /** One copy of each element (its last occurrence), order kept. This stands
      for Python's `list(set(xs))`, whose order is unspecified. */
  function Dedup<T(==,!new)>(s: seq<T>): (r: seq<T>)
    ensures Distinct(r)
    ensures IsSubsequence(r, s)
    ensures forall x :: x in r <==> x in s
    ensures |r| == |Elems(s)|
  {
    if |s| == 0 then []
    else
      var rest := Dedup(s[1..]);
      assert s == [s[0]] + s[1..];
      if s[0] in s[1..] then
        assert Elems(s) == Elems(s[1..]);
        rest
      else
        DistinctCons(s[0], rest);
        var r := [s[0]] + rest;
        assert r[1..] == rest;
        DistinctCard(r);
        assert Elems(r) == Elems(s);
        r
  }

  /** With one or two distinct elements, the set of a list is exactly what
      `Dedup` kept. */
  lemma DedupSmall<T(!new)>(s: seq<T>)
    ensures |Dedup(s)| == 1 ==> Elems(s) == {Dedup(s)[0]}
    ensures |Dedup(s)| == 2 ==> Elems(s) == {Dedup(s)[0], Dedup(s)[1]}
  {
    var r := Dedup(s);
    if |r| == 1 {
      assert r == [r[0]];
      assert forall x :: x in Elems(s) <==> x == r[0];
    } else if |r| == 2 {
      assert r == [r[0], r[1]];
      assert forall x :: x in Elems(s) <==> x == r[0] || x == r[1];
    }
  }

  /** The distinct elements of a list when there are one or two of them,
      the case the source's getters accept. */
  datatype Few<T> = Neither | One(only: T) | Two(first: T, second: T)

  /** `list(set(xs))` inspected for one or two elements. */
  function FewOf<T(==,!new)>(s: seq<T>): (r: Few<T>)
    ensures r.Neither? <==> |Elems(s)| == 0 || |Elems(s)| > 2
    ensures r.One? ==> Elems(s) == {r.only}
    ensures r.Two? ==> r.first != r.second && Elems(s) == {r.first, r.second}
    ensures r.Two? <==> |Elems(s)| == 2
    ensures forall x :: r == One(x) <==> Elems(s) == {x}
  {
    var caps := Dedup(s);
    DedupSmall(s);
    if |caps| == 1 then
      SingletonUnique(Elems(s), caps[0]);
      One(caps[0])
    else if |caps| == 2 then Two(caps[0], caps[1])
    else Neither
  }

  /** A list with more than one distinct element holds two different ones. */
  lemma TwoDistinct<T>(s: seq<T>)
    requires |Elems(s)| > 1
    ensures exists x, y :: x in s && y in s && x != y
  {
    var x :| x in Elems(s);
    assert |Elems(s) - {x}| == |Elems(s)| - 1;
    var y :| y in Elems(s) - {x};
  }

  /** Two two-element sets are equal only when their elements pair up. */
  lemma PairCases<T>(a: T, b: T, x: T, y: T)
    ensures {a, b} == {x, y} <==> (a == x && b == y) || (a == y && b == x)
  {
    if {a, b} == {x, y} {
      assert a in {x, y} && b in {x, y} && x in {a, b} && y in {a, b};
    }
  }

  /** A set equal to `{y}` is equal to no other singleton. */
  lemma SingletonUnique<T>(a: set<T>, y: T)
    requires a == {y}
    ensures forall x :: a == {x} ==> x == y
  {
    forall x | a == {x} ensures x == y { assert y in {x}; }
  }

  /** Row-major concatenation of a 2-D list (numpy's `flatten`). */
  function Flatten<T(!new)>(xss: seq<seq<T>>): (r: seq<T>)
    ensures forall x :: x in r <==> exists i :: 0 <= i < |xss| && x in xss[i]
  {
    if |xss| == 0 then []
    else
      var rest := Flatten(xss[1..]);
      assert forall i :: 1 <= i < |xss| ==> xss[i] == xss[1..][i - 1];
      xss[0] + rest
  }
}

=== FILE: text.dfy ===
/** The Python `str` operations the scraper relies on, over `seq<char>`:
    `startswith`, `in`, `replace`, `split`, `join`, `str(n)` and `int(s)` on
    decimal digit strings. */
module Text {
  import opened Wrappers
  import opened Seqs

  predicate StartsWith(s: string, prefix: string) {
    |prefix| <= |s| && s[..|prefix|] == prefix
  }

  predicate OccursAt(s: string, p: string, i: int) {
    0 <= i && i + |p| <= |s| && s[i..i + |p|] == p
  }

  /** `p in s` for strings: `p` occurs at some position of `s`. */
  predicate Occurs(s: string, p: string) {
    exists i | 0 <= i <= |s| :: OccursAt(s, p, i)
  }

  lemma OccursInSuffix(s: string, k: nat, p: string)
    requires k <= |s| && Occurs(s[k..], p)
    ensures Occurs(s, p)
  {
    var i :| 0 <= i <= |s[k..]| && OccursAt(s[k..], p, i);
    assert s[k + i..k + i + |p|] == s[k..][i..i + |p|];
    assert OccursAt(s, p, k + i);
  }

  /** An occurrence of `a + b + c` is an occurrence of each part, one after
      the other. */
  lemma OccursAtParts(s: string, i: nat, a: string, b: string, c: string)
    requires OccursAt(s, a + b + c, i)
    ensures OccursAt(s, a, i) && OccursAt(s, c, i + |a| + |b|)
    ensures s[i + |a|..i + |a| + |b|] == b
  {
    var p := a + b + c;
    assert s[i..i + |p|] == p;
    forall k | 0 <= k < |p| ensures s[i + k] == p[k] {
      assert s[i..i + |p|][k] == s[i + k];
    }
    forall k | 0 <= k < |a| ensures s[i..i + |a|][k] == a[k] {
      assert p[k] == a[k];
    }
    forall k | 0 <= k < |b| ensures s[i + |a|..i + |a| + |b|][k] == b[k] {
      assert p[|a| + k] == b[k];
    }
    forall k | 0 <= k < |c| ensures s[i + |a| + |b|..i + |p|][k] == c[k] {
      assert p[|a| + |b| + k] == c[k];
    }
  }

  lemma OccursAtStart(s: string, p: string)
    requires StartsWith(s, p)
    ensures Occurs(s, p)
  {
    assert OccursAt(s, p, 0);
  }

  /** Python's `s.replace(pat, rep)`: every non-overlapping occurrence of
      `pat`, found left to right, is replaced. */
  function Replace(s: string, pat: string, rep: string): string
    requires |pat| > 0
    decreases |s|
  {
    if |s| == 0 then ""
    else if StartsWith(s, pat) then rep + Replace(s[|pat|..], pat, rep)
    else [s[0]] + Replace(s[1..], pat, rep)
  }

  /** A string in which `pat` does not occur is left as it is. */
  lemma {:induction false} ReplaceAbsent(s: string, pat: string, rep: string)
    requires |pat| > 0 && !Occurs(s, pat)
    ensures Replace(s, pat, rep) == s
    decreases |s|
  {
    if |s| > 0 {
      if StartsWith(s, pat) {
        OccursAtStart(s, pat);
      }
      if Occurs(s[1..], pat) {
        OccursInSuffix(s, 1, pat);
      }
      ReplaceAbsent(s[1..], pat, rep);
      assert s == [s[0]] + s[1..];
    }
  }

  /** A string whose first character is absent from `s` does not occur in it. */
  lemma AbsentHead(s: string, p: string)
    requires |p| > 0 && p[0] !in s
    ensures !Occurs(s, p)
  {
    forall i | 0 <= i <= |s| ensures !OccursAt(s, p, i) {
      if i + |p| <= |s| {
        assert s[i..i + |p|][0] == s[i];
      }
    }
  }

  /** `replace` introduces no character that is in neither the string nor
      the replacement. */
  lemma {:induction false} ReplaceNoNewChar(s: string, pat: string, rep: string, c: char)
    requires |pat| > 0 && c !in s && c !in rep
    ensures c !in Replace(s, pat, rep)
    decreases |s|
  {
    if |s| > 0 {
      if StartsWith(s, pat) {
        ReplaceNoNewChar(s[|pat|..], pat, rep, c);
      } else {
        ReplaceNoNewChar(s[1..], pat, rep, c);
      }
    }
  }

  /** Where `pat` occurs, `replace` leaves the replacement's first
      character in the result. */
  lemma {:induction false} ReplaceShowsRep(s: string, pat: string, rep: string)
    requires |pat| > 0 && |rep| > 0 && Occurs(s, pat)
    ensures rep[0] in Replace(s, pat, rep)
    decreases |s|
  {
    var i :| 0 <= i <= |s| && OccursAt(s, pat, i);
    if StartsWith(s, pat) {
      assert Replace(s, pat, rep)[0] == rep[0];
    } else {
      assert i > 0;
      assert s[1..][i - 1..i - 1 + |pat|] == s[i..i + |pat|];
      assert OccursAt(s[1..], pat, i - 1);
      ReplaceShowsRep(s[1..], pat, rep);
      assert Replace(s, pat, rep) == [s[0]] + Replace(s[1..], pat, rep);
    }
  }

  /** One step of `Replace` with a one-character pattern. */
  lemma ReplaceCharStep(s: string, c: char, rep: string)
    requires |s| > 0
    ensures Replace(s, [c], rep) == (if s[0] == c then rep else [s[0]]) + Replace(s[1..], [c], rep)
  {
  }

  /** Replacing a one-character string by the empty string deletes that
      character and keeps every other one, in order. */
  lemma {:induction false} ReplaceCharByEmpty(s: string, c: char, keep: char -> bool)
    requires forall x :: keep(x) <==> x != c
    ensures Replace(s, [c], "") == Filter(s, keep)
    decreases |s|
  {
    if |s| > 0 {
      ReplaceCharByEmpty(s[1..], c, keep);
      ReplaceCharStep(s, c, "");
      FilterStep(s, keep);
    }
  }

  /** Replacing a character by another one maps the string position-wise. */
  lemma {:induction false} ReplaceCharByChar(s: string, c: char, d: char)
    ensures |Replace(s, [c], [d])| == |s|
    ensures forall i :: 0 <= i < |s| ==> Replace(s, [c], [d])[i] == if s[i] == c then d else s[i]
    decreases |s|
  {
    if |s| > 0 {
      ReplaceCharByChar(s[1..], c, d);
      var r := Replace(s, [c], [d]);
      assert r == [if s[0] == c then d else s[0]] + Replace(s[1..], [c], [d]);
    }
  }

  /** Python's `s.split(c)` for a one-character separator: the pieces between
      separators, always at least one. */
  function Split(s: string, c: char): (parts: seq<string>)
    ensures |parts| >= 1
    ensures forall k :: 0 <= k < |parts| ==> c !in parts[k]
    decreases |s|
  {
    if |s| == 0 then [""]
    else
      var rest := Split(s[1..], c);
      if s[0] == c then [""] + rest
      else [[s[0]] + rest[0]] + rest[1..]
  }

  /** Python's `c.join(parts)`. */
  function Join(parts: seq<string>, c: char): string
    requires |parts| >= 1
    decreases |parts|
  {
    if |parts| == 1 then parts[0] else parts[0] + [c] + Join(parts[1..], c)
  }

  lemma {:induction false} JoinSplit(s: string, c: char)
    ensures Join(Split(s, c), c) == s
    decreases |s|
  {
    if |s| > 0 {
      var rest := Split(s[1..], c);
      JoinSplit(s[1..], c);
      if s[0] != c {
        var parts := [[s[0]] + rest[0]] + rest[1..];
        if |rest| > 1 {
          assert parts[1..] == rest[1..];
          assert Join(rest, c) == rest[0] + [c] + Join(rest[1..], c);
        }
      }
      assert s == [s[0]] + s[1..];
    }
  }

  lemma {:induction false} SplitJoin(parts: seq<string>, c: char)
    requires |parts| >= 1
    requires forall k :: 0 <= k < |parts| ==> c !in parts[k]
    ensures Split(Join(parts, c), c) == parts
    decreases |parts|, |parts[0]|
  {
    if |parts[0]| > 0 {
      var p0 := parts[0];
      var tailParts := [p0[1..]] + parts[1..];
      SplitJoin(tailParts, c);
      var j := Join(parts, c);
      assert j[0] == p0[0];
      if |parts| == 1 {
        assert j[1..] == Join(tailParts, c);
      } else {
        assert Join(tailParts, c) == p0[1..] + [c] + Join(parts[1..], c);
        assert j[1..] == Join(tailParts, c);
      }
      assert p0 == [p0[0]] + p0[1..];
    } else if |parts| > 1 {
      SplitJoin(parts[1..], c);
      var j := Join(parts, c);
      assert j == [c] + Join(parts[1..], c);
      assert j[1..] == Join(parts[1..], c);
      assert parts == [""] + parts[1..];
    }
  }

  // Decimal digits

  predicate IsDigit(ch: char) {
    '0' <= ch <= '9'
  }

  predicate AllDigits(s: string) {
    forall i :: 0 <= i < |s| ==> IsDigit(s[i])
  }

  function DigitChar(d: nat): (ch: char)
    requires d < 10
    ensures IsDigit(ch)
  {
    (48 + d) as char
  }

  function DigitValue(ch: char): (d: nat)
    requires IsDigit(ch)
    ensures d < 10 && DigitChar(d) == ch
  {
    (ch as int) - 48
  }

  /** `int(s)` for a non-empty string of decimal digits. */
  function DigitsValue(s: string): nat
    requires AllDigits(s)
    decreases |s|
  {
    if |s| == 0 then 0 else DigitsValue(s[..|s| - 1]) * 10 + DigitValue(s[|s| - 1])
  }

  /** `str(n)` for a non-negative integer. */
  function NatToString(n: nat): (s: string)
    ensures |s| >= 1 && AllDigits(s)
    ensures 1 <= n <= 9 <==> |s| == 1 && s[0] != '0'
  {
    if n < 10 then [DigitChar(n)] else NatToString(n / 10) + [DigitChar(n % 10)]
  }

  /** `int(str(n)) == n`. */
  lemma {:induction false} NatToStringRoundTrip(n: nat)
    ensures DigitsValue(NatToString(n)) == n
  {
    var s := NatToString(n);
    if n >= 10 {
      NatToStringRoundTrip(n / 10);
      assert s[..|s| - 1] == NatToString(n / 10);
    }
  }

  /** The longest prefix of `s` made of digits. */
  function LeadingDigits(s: string): (d: string)
    ensures |d| <= |s| && AllDigits(d) && d == s[..|d|]
    ensures |d| == |s| || !IsDigit(s[|d|])
    decreases |s|
  {
    if |s| == 0 || !IsDigit(s[0]) then "" else [s[0]] + LeadingDigits(s[1..])
  }

  /** The position of the first digit of `s`, if any. */
  function FirstDigitIndex(s: string): (r: Option<nat>)
    ensures r.None? <==> forall i :: 0 <= i < |s| ==> !IsDigit(s[i])
    ensures r.Some? ==> r.value < |s| && IsDigit(s[r.value])
                        && forall i :: 0 <= i < r.value ==> !IsDigit(s[i])
    decreases |s|
  {
    if |s| == 0 then None
    else if IsDigit(s[0]) then Some(0)
    else match FirstDigitIndex(s[1..])
      case None => None
      case Some(k) => Some(k + 1)
  }

  /** The first maximal run of digits in `s`: the first element of Python's
      `re.findall(r"[0-9]+", s)`, or `None` when that list is empty. */
  function FirstDigitRun(s: string): (r: Option<string>)
    ensures r.None? <==> forall i :: 0 <= i < |s| ==> !IsDigit(s[i])
    ensures r.Some? ==> |r.value| >= 1 && AllDigits(r.value)
    ensures r.Some? ==> exists p :: FirstRunAt(s, p, r.value)
  {
    match FirstDigitIndex(s)
    case None => None
    case Some(p) =>
      var d := LeadingDigits(s[p..]);
      assert s[p..p + |d|] == d;
      assert FirstRunAt(s, p, d);
      Some(d)
  }

  /** A string that starts with a run of digits `d` followed by a non-digit
      (or nothing) has `d` as its first run. */
  lemma FirstDigitRunOfPrefix(d: string, rest: string)
    requires |d| >= 1 && AllDigits(d)
    requires |rest| > 0 ==> !IsDigit(rest[0])
    ensures FirstDigitRun(d + rest) == Some(d)
  {
    var s := d + rest;
    var r := FirstDigitRun(s).value;
    var p :| FirstRunAt(s, p, r);
    assert s[0] == d[0];
    assert p == 0;
    assert |rest| > 0 ==> s[|d|] == rest[0];
    assert |r| == |d|;
    assert r == s[..|d|] == d;
  }

  /** `d` is a maximal run of digits starting at `p`, and no digit precedes it. */
  predicate FirstRunAt(s: string, p: int, d: string) {
    && 0 <= p && p + |d| <= |s|
    && (forall i :: 0 <= i < p ==> !IsDigit(s[i]))
    && s[p..p + |d|] == d
    && (p + |d| == |s| || !IsDigit(s[p + |d|]))
  }
}

=== FILE: wrappers.dfy ===
/** Failure-compatible wrappers used across the model: `Option` for Python's
    `None`-or-value results and `Result` for operations that can raise. */
module Wrappers {

  datatype Option<+T> = None | Some(value: T) {
    predicate IsFailure() {
      None?
    }

    function PropagateFailure<U>(): Option<U>
      requires None?
    {
      None
    }

    function Extract(): T
      requires Some?
    {
      value
    }
  }

  /** The reasons a step raises in the source: a failed `assert`, `int()`
      applied to a non-number, or a `ValueError` from numpy. */
  datatype Error = AssertionFailed(what: string) | NotAnInteger(text: string) | InvalidArgument(what: string)

  datatype Result<+R> = Ok(value: R) | Err(error: Error) {
    predicate IsFailure() {
      Err?
    }

    function PropagateFailure<U>(): Result<U>
      requires Err?
    {
      Err(error)
    }

    function Extract(): R
      requires Ok?
    {
      value
    }
  }
}
